=== FILE: README.md ===
# voidshell command interpreter in Dafny

voidshell is a React widget that behaves like a small terminal. The user types a
line and presses Enter. The line is echoed as `$ line` and then read in a fixed
order:

1. as an assignment `name = value`;
2. as a built-in command (`vars`, `clear`, `help`, in any casing);
3. as the bare name of a variable;
4. as an arithmetic expression, after every variable is replaced by its value.

A line that none of these accepts gives `Command not found: line`. The arrow
keys walk back and forth through the submitted lines.

The package ships this logic twice, in `src/Terminal.tsx` and
`src/MinimalistTerminal.tsx`. Lines 1–200 of both files are the same except the
component name on line 15. Past line 200 they differ only in the markup and in
the component name of the final `export default`. One model covers both, and the
line numbers cited below hold in either file.

The model is functional. A `Session` holds the same state as the component:
- the variable store (`variables`): bindings in the order their names were first assigned;
- the transcript (`history`): entries of kind input, output or error;
- the recall list (`commandHistory`);
- the recall cursor (`historyIndex`, -1 when no line is selected);
- the input line (`currentInput`).

`Execute`, `Enter`, `Up`, `Down` and `Edit` are pure functions from session to
session.

The expression step calls `Function("use strict"; return (...))`. It is modelled
as a parameter `eval: string -> Option<string>`:
- `Some(text)` is the result's `toString()`;
- `None` means the evaluation threw.

Every other step is modelled as the code does it:
- `trim` and `\s` use ECMAScript's white-space and line-terminator set;
- `.` in the assignment pattern stops at line terminators;
- the greedy `\s*` after `=` gives back a space only when nothing else is left for `(.+)`;
- `String.prototype.replace` expands `$$`, `` $& ``, `` $` `` and `$'` in the replacement text;
- the successive `setHistory` updates of one submission apply in program order, so `clear` also removes its own echo.

Numbers are exact decimals `Num(mantissa, scale)` in lowest terms. This agrees
with `parseInt`/`parseFloat` followed by `toString` when the number is 0 or its
magnitude lies in [1e-6, 1e21), and the numeral has at most 15 significant
digits. Outside that range JavaScript shows numbers differently (see "Left out").

Modules:
- `Options`: the `Option` type.
- `Chars`: character classes.
- `Text`: trimming, lower-casing and line splitting.
- `Numerals`: decimal digit strings.
- `Values`: `parseValue` and `formatValue`.
- `Store`: the variable object.
- `Syntax`: the assignment and identifier patterns and the expression gate.
- `Substitution`: whole-word replacement of variables.
- `Interpreter`: the commands and the dispatch of one trimmed line.
- `Terminal`: the session and the key handlers.

`tests/Comparisons.test.tsx` (lines 19-79) expects Python-style comparisons
that the code does not implement. The model follows the code:
- The tests expect `True and False`, `True or False`, `not True`, `1 is 1` and `1 is not 2` to work (lines 48-55, 73-78). The code has no translation of `and`, `or`, `not`, `is` or `is not`.
- The tests expect `True` and `False` as results (for example lines 20-24). The code shows the evaluator's own `toString()`, which would be `true` or `false`.
- The tests use `==`, `!=`, `<`, `<=`, `>` and `>=` (lines 20-38, 45). The filter at `src/Terminal.tsx:151` rejects `=`, `<`, `>` and `!` (`GateRejectsComparisons`), so such lines answer `Command not found`.
- `True == True`, `name == 'John'` and `age == 30` (lines 42, 63, 69) are not even comparisons: the assignment pattern at `src/Terminal.tsx:96` reads `name == 'John'` as assigning the text `= 'John'` to `name` (`DoubleEqualsAssigns`).

## Model

| member | source | states |
|---|---|---|
| Chars.ToLower | src/Terminal.tsx:110 | A lower-case ASCII letter and every non-letter stay as they are; an upper-case ASCII letter becomes the lower-case letter at the same place in the alphabet. |
| Text.Trim | src/Terminal.tsx:81 | The trimmed line has no white space at either end and is the stretch of the line between its leading and trailing white space. |
| Text.TrimUnique | src/Terminal.tsx:81 | Trimming white space wrapped around a text that has none at its ends gives back exactly that text. |
| Text.TrimBordered | src/Terminal.tsx:81 | A line with no white space at its ends is unchanged by trimming. |
| Text.TrimEmpty | src/Terminal.tsx:81-82 | The trimmed line is empty exactly when the line is all white space, in both directions. |
| Text.TrimNoLineTerminator | src/Terminal.tsx:26 | Trimming never introduces a line terminator. |
| Text.Lower | src/Terminal.tsx:110 | No upper-case ASCII letter is left in a lowered text. |
| Text.LowerCaseless | src/Terminal.tsx:110 | Two texts lower to the same text exactly when they differ only in the case of ASCII letters. |
| Text.LowerIdempotent | src/Terminal.tsx:110 | Lowering an already lowered text changes nothing. |
| Text.SplitLines | src/Terminal.tsx:59-61 | The reference reading of the `vars` listing line by line: splitting at `\n` always yields at least one line, and SplitJoin states that it inverts the join at line 61. |
| Text.JoinLines | src/Terminal.tsx:61 | A join opens with its first line, followed by a newline when more lines come; SplitJoin states that splitting undoes it. |
| Text.SplitJoin | src/Terminal.tsx:59-61 | Joining lines that contain no newline with `\n` and splitting again gives back the same lines. |
| Values.Normalize | src/Terminal.tsx:42 | A decimal numeral's value in lowest terms has no more decimal places than the numeral and denotes the same rational number. |
| Values.NormalizeTen | src/Terminal.tsx:42 | A numeral with one more decimal place and ten times the digits denotes the same number in lowest terms. |
| Values.NormalizeScaled | src/Terminal.tsx:42 | An integer scaled up by as many decimal places as it is shifted comes back as that integer with no decimal places. |
| Values.DecimalValue | src/Terminal.tsx:42 | `parseFloat` of a text matching `-?\d*\.\d+` is a number in lowest terms whose value is all the digits read as one signed integer over 10 to the number of digits after the point. |
| Values.DecimalReading | src/Terminal.tsx:41-42 | A sign, optional whole digits, a point and fraction digits read as all the digits with the sign, divided by 10 to the number of fraction digits, in lowest terms. |
| Values.IntegerRead | src/Terminal.tsx:41 | A sign followed by digits reads as the integer those digits denote. |
| Values.DecimalTrailingZero | src/Terminal.tsx:42 | A zero appended to a decimal numeral does not change the number: `1.50` reads as `1.5`. |
| Values.DecimalLeadingZero | src/Terminal.tsx:42 | A zero put before the whole digits does not change the number: `01.5` reads as `1.5`, and `.5` as `0.5`. |
| Values.DecimalZero | src/Terminal.tsx:42 | A decimal numeral whose digits are all zero reads as 0 whatever its sign: `-0.0` and `.00` read as `0`. |
| Values.DecimalWhole | src/Terminal.tsx:41-42 | A decimal numeral whose fraction digits are all zero reads as the integer numeral of its whole digits: `-3.00` reads as `-3`. |
| Values.IsIntegerText | src/Terminal.tsx:41 | The pattern `^-?\d+$`; IntegerLayout states that a sign and digits match it, IntegerTextOfNumber that every shown integer does, and NotNumberText that a text not ending in a digit does not. |
| Values.IsDecimalText | src/Terminal.tsx:42 | The pattern `^-?\d*\.\d+$`, whose whole digits may be absent; DecimalLayout states that a sign, digits, a point and digits match it and not the integer pattern, DecimalTextOfNumber that every shown fraction does, and TrailingPoint that `5.` does not. |
| Values.IntegerLayout | src/Terminal.tsx:41 | An optional minus sign followed by digits matches `^-?\d+$`, and `parseInt` reads it as the digits' value with that sign. |
| Values.DecimalLayout | src/Terminal.tsx:41-42 | An optional minus sign, digits (possibly none), a point and at least one digit match `^-?\d*\.\d+$` and not `^-?\d+$`; the digits before and after the point are the given ones. |
| Values.IntegerValue | src/Terminal.tsx:41 | `parseInt(t, 10)` of an integer text; IntegerRead states that a sign and digits read as the signed value of the digits, and NumberRoundTrip that every shown integer reads back. |
| Values.Dequote | src/Terminal.tsx:29-34 | `slice(1, -1)` of a quoted text; QuotedInner and LoneQuote state that it gives the text between the quotes, or the empty text for a lone quote. |
| Values.ParseValue | src/Terminal.tsx:25-46 | `parseValue` is total: every text reads as some value, and numbers come out in lowest terms. |
| Values.ParseTrimmed | src/Terminal.tsx:28-45 | On a trimmed text, the result is a boolean exactly for `True` and `False`. A number comes only from a text matching one of the two number patterns. A string is either the text itself or, for a text opening and closing with the same quote, the text between the quotes. |
| Values.NotNumberText | src/Terminal.tsx:41-42 | A text that does not end in a digit matches neither number pattern. |
| Values.ParseValueNoLineTerminator | src/Terminal.tsx:25-46 | A value text without line terminators never reads as a string that has one. |
| Values.IntegerTextOfNumber | src/Terminal.tsx:41-51 | The text `formatValue` gives an integer matches `^-?\d+$`, and `parseInt` reads the same integer back from it. |
| Values.DecimalTextOfNumber | src/Terminal.tsx:42-51 | The text of a fractional number matches `^-?\d*\.\d+$` but not the integer pattern, and `parseFloat` reads the same number back from it. |
| Values.NumeralParse | src/Terminal.tsx:41-42 | A text that starts with `-`, `.` or a digit reads as an integer when it matches the integer pattern, and otherwise as a decimal when it matches the decimal pattern. |
| Values.NumberRoundTrip | src/Terminal.tsx:41-51 | Reading the shown text of any number gives the same number back. |
| Values.FormatParseRoundTrip | src/Terminal.tsx:25-52 | `parseValue(formatValue(v)) == v` for every value `parseValue` can produce, with numbers read as exact decimals. This covers strings in single quotes, `True`/`False` and numbers. |
| Values.QuotedInner | src/Terminal.tsx:29-34 | A text between two equal quotes reads as exactly that text, without any escape processing. |
| Values.LoneQuote | src/Terminal.tsx:29-34 | A single quote character is both start and end quote and reads as the empty string. |
| Values.MismatchedQuotes | src/Terminal.tsx:29-45 | A text that opens with one kind of quote and closes with the other is kept as the text itself, quotes included. |
| Values.BooleanWords | src/Terminal.tsx:37-38 | The result is a boolean exactly when the trimmed text is `True` or `False`, and it is shown as that same word. |
| Values.LowerCaseTrueIsText | src/Terminal.tsx:37-45 | `true` in lower case is not a boolean; it is stored as the text `true`. |
| Values.IntegerText | src/Terminal.tsx:51 | An integer is shown as its sign and its decimal digits, with no leading zeros. |
| Values.NumberText | src/Terminal.tsx:51 | A number's text is non-empty and opens with `-` or a digit; NumberRoundTrip reads it back as the same number. |
| Values.FormatValue | src/Terminal.tsx:48-52 | A shown value is non-empty and its first character tells its kind: `'` for a string, `T` or `F` for a boolean (which holds no `=`), `-` or a digit for a number. FormatParseRoundTrip reads it back. |
| Values.IntegerCanonical | src/Terminal.tsx:41-51 | An integer numeral is shown again with its leading zeros dropped, and `-0` (or `-00`) is shown as `0`. |
| Values.PointNumeral | src/Terminal.tsx:41-42 | A point followed by one non-zero digit matches the decimal pattern and not the integer pattern, and `parseFloat` reads it as that digit tenths. |
| Values.PointFraction | src/Terminal.tsx:42 | `.5`, and any point followed by one non-zero digit, is a number: the digits before the point may be absent. |
| Values.PointFractionShown | src/Terminal.tsx:51 | The number one half is shown as `0.5`. |
| Values.TrailingPoint | src/Terminal.tsx:42-45 | `5.` is not a number and is stored as the text `5.`. |
| Values.ParseFallback | src/Terminal.tsx:45 | A trimmed text that is neither quoted nor a boolean word, and holds a character that no numeral can contain, is stored as the trimmed text. |
| Store.Lookup | src/Terminal.tsx:121-124 | A name is found exactly when it is bound, and the value found is the one bound to it. |
| Store.Assign | src/Terminal.tsx:101 | Spreading the store with a bound name keeps the names and their order. With a new name, the binding is added at the end. Afterwards the name reads back as the new value. |
| Store.AssignContents | src/Terminal.tsx:101 | After an assignment, every binding is either the new one or one that was there before. |
| Store.AssignOthers | src/Terminal.tsx:101 | Assigning one name leaves what every other name reads as unchanged. |
| Store.AssignNames | src/Terminal.tsx:101 | Reassigning a bound name keeps the list of names. A new name is added after all the others. |
| Store.AssignFrame | src/Terminal.tsx:101 | After an assignment, every name but the assigned one reads as it did before. |
| Store.AssignDistinct | src/Terminal.tsx:101 | Each name stays bound once. The store grows by one binding exactly when the name was new. |
| Syntax.ScanSound | src/Terminal.tsx:95-97 | Every match the assignment scanner reports splits the line into an identifier, spaces, `=`, spaces and a non-empty rest without line terminators. |
| Syntax.ScanComplete | src/Terminal.tsx:95-97 | Whenever the line can be split that way, the scanner matches with the same name. Its rest is a suffix of every other split's rest, as the greedy `\s*` makes it. |
| Syntax.ScanGreedy | src/Terminal.tsx:95-97 | Once a name, spaces, `=` and a rest without line terminators are in place, the scanner matches that name, with a rest no longer than the given one. |
| Syntax.NoEqualsNoAssignment | src/Terminal.tsx:95-98 | A line without `=` is never an assignment. |
| Syntax.DoubleEqualsAssigns | src/Terminal.tsx:95-97 | `x == 1` is an assignment of the text `= 1` to `x`. |
| Syntax.CommandNameAssigns | src/Terminal.tsx:95-111 | `vars = 1` is an assignment to a variable named `vars`, not the `vars` command. |
| Syntax.ScanTrimmed | src/Terminal.tsx:95-100 | On a trimmed line, the rest of a match is itself trimmed and is a proper suffix of the line. |
| Syntax.GateRejectsComparisons | src/Terminal.tsx:151 | A line that contains `=`, `<`, `>` or `!` never passes the expression filter. |
| Syntax.ScanAssignment | src/Terminal.tsx:95-97 | A match names an identifier that opens the line, and its rest is a non-empty ending of the line without line terminators. ScanSound and ScanComplete pin it to the regular expression. |
| Syntax.IsIdentifier | src/Terminal.tsx:120 | `^[a-zA-Z_][a-zA-Z0-9_]*$`; IdentifierIsNoAssignment and IdentifierPassesGate state what it means for the dispatch. |
| Syntax.IdentifierIsNoAssignment | src/Terminal.tsx:95-120 | A bare identifier is never an assignment, so it reaches the lookup branch unless it is a command word. |
| Syntax.ExprGate | src/Terminal.tsx:151 | The expression filter; GateRejectsComparisons and IdentifierPassesGate state what it lets through. |
| Syntax.IdentifierPassesGate | src/Terminal.tsx:120-151 | Every identifier would pass the expression filter, so only the lookup branch keeps a bare name from being evaluated. |
| Substitution.ExpandLiteral | src/Terminal.tsx:144-147 | From any position on, a stretch of the replacement text that holds no `$` is copied as it stands. |
| Substitution.Expand | src/Terminal.tsx:144-147 | The replacement inserted for one match is the replacement text itself whenever that text holds no `$`; only `$` patterns make it depend on the matched text. |
| Substitution.ReplaceAll | src/Terminal.tsx:143-147 | The global `\bname\b` replace equals the reference reading by word runs: exactly the runs equal to the name are replaced. |
| Substitution.ReplaceMatchesRuns | src/Terminal.tsx:143-147 | The global `\bname\b` replace equals cutting the text into runs of word characters and replacing exactly the runs equal to the name. A name inside a longer identifier is therefore never replaced. |
| Substitution.ReplaceNoMatch | src/Terminal.tsx:143-147 | A text in which the name never stands as a whole word is left unchanged. |
| Substitution.Literal | src/Terminal.tsx:146 | A number is replaced by the same text `formatValue` shows. A string or boolean is replaced by a literal in double quotes. |
| Substitution.LiteralReadsBack | src/Terminal.tsx:146 | A substituted literal reads back as the number or string it stood for. A boolean comes back as the text `true` or `false`, not as a boolean. |
| Substitution.SubstituteLast | src/Terminal.tsx:139-148 | Substitution is a fold in store order: the binding assigned last replaces its name in the text all the others produced. |
| Substitution.Substitute | src/Terminal.tsx:139-148 | The fold over the store in insertion order; SubstituteLast, SubstituteUntouched and LiteralReadsBack state it. |
| Substitution.SubstituteUntouched | src/Terminal.tsx:139-148 | An expression in which no bound name stands as a whole word is evaluated exactly as typed. |
| Substitution.LongerWordUntouched | src/Terminal.tsx:143 | With `x` bound to 5, `xy + x` becomes `xy + 5`. |
| Interpreter.CommandName | src/Terminal.tsx:55-78 | The command words are identifiers written in lower case. |
| Interpreter.ParseCommand | src/Terminal.tsx:110-111 | A line selects a command exactly when its lower-cased text is that command's word. |
| Interpreter.CommandCaseInsensitive | src/Terminal.tsx:110-111 | Texts that differ only in letter case, a line and its lowered form included, select the same command or none. |
| Interpreter.CommandIsNoAssignment | src/Terminal.tsx:95-117 | A command word is never also an assignment, so trying assignments first does not hide any command. |
| Interpreter.VarLine | src/Terminal.tsx:60 | The listing line `name = formatValue(value)`; VarLineReadsBack states that it is the name, ` = ` and a text that reads back as the value, and VarLineHasNoNewline that it is one line. |
| Interpreter.VarsText | src/Terminal.tsx:56-62 | `vars` says `No variables declared` exactly when no variable is bound. |
| Interpreter.FormatHasNoNewline | src/Terminal.tsx:48-52 | The shown text of a value has no newline, unless a string value holds one. |
| Interpreter.VarLineHasNoNewline | src/Terminal.tsx:60 | A listing line of an identifier and a value without newlines is itself one line. |
| Interpreter.VarsListing | src/Terminal.tsx:56-62 | Splitting the `vars` output at newlines gives back exactly one line per variable, in store order. |
| Interpreter.VarLineReadsBack | src/Terminal.tsx:60 | A listing line is the name, ` = `, and a text that `parseValue` reads back as the value. |
| Interpreter.ListingReadsBack | src/Terminal.tsx:56-62 | The lines of a non-empty `vars` listing are, in store order, each variable's name followed by ` = ` and a text that reads back as its value. |
| Interpreter.CommandOutput | src/Terminal.tsx:55-78 | Only `clear` returns the empty text, so only `clear` adds no output entry. |
| Interpreter.Dispatch | src/Terminal.tsx:95-170 | Clearing adds no reply and keeps the store. Only an assignment changes the store, and an assignment leaves exactly the store that spreading the old one with the name bound to `parseValue` of the rest gives. |
| Interpreter.Assignment | src/Terminal.tsx:98-106 | An assignment never clears and always answers with one output entry. The name then reads as `parseValue` of the rest, every other name reads as before, and the names keep their order, with a new name added last. |
| Interpreter.RunCommand | src/Terminal.tsx:110-116 | A command keeps the store and clears exactly when it is `clear`. Any reply it gives is output. |
| Interpreter.Query | src/Terminal.tsx:120-170 | A lookup or expression keeps the store, never clears, and always answers with one output or error entry. |
| Interpreter.AssignmentStores | src/Terminal.tsx:95-106 | An assignment binds the name to `parseValue` of the rest, leaves every other name alone, never clears, and answers `name = formatValue(value)`. |
| Interpreter.CommandOutcome | src/Terminal.tsx:55-116 | `vars` answers with the listing and `help` with the help text. `clear` clears and answers nothing. None of them changes the store. |
| Interpreter.ListingIsNoValue | src/Terminal.tsx:56-62 | A non-empty `vars` listing is never the shown text of a value. |
| Interpreter.CommandShadowsVariable | src/Terminal.tsx:110-133 | A variable whose name is a command word, in any casing, can never be read by its bare name: the command answers instead, and the store is unchanged. |
| Interpreter.LookupOutcome | src/Terminal.tsx:120-133 | A bare identifier that is not a command word shows the bound value. When it is unbound, the answer is `Variable "name" not found`. |
| Interpreter.ExpressionOutcome | src/Terminal.tsx:135-170 | Any other line that passes the filter shows the evaluator's result on the substituted text, or `Command not found: line` when the evaluation fails. A line that fails the filter gets the same error. |
| Terminal.Execute | src/MinimalistTerminal.tsx:80-171 | A blank line changes nothing. Any other line is recalled in its trimmed form and resets the cursor. A line that is no assignment keeps the variables; an assignment leaves them as the store spread with the name bound to `parseValue` of the rest. The input text is left alone. |
| Terminal.Enter | src/MinimalistTerminal.tsx:174-176 | Enter executes the input line: the variables, transcript, recall list and cursor are those the submission of the input leaves. It always empties the input. |
| Terminal.EnterSubmits | src/MinimalistTerminal.tsx:81-176 | Enter on a non-blank input recalls its trimmed form and empties the input. An assignment binds its name to the read value and leaves every other variable alone; any other line keeps the variables. The transcript is empty exactly for `clear`, and otherwise continues the old one with the echo of the line. |
| Terminal.Up | src/MinimalistTerminal.tsx:177-186 | Up does nothing on an empty recall list. Otherwise it moves from none to the last line, from any later line one line earlier, and stays on the first line, showing the selected line. It keeps the cursor in range and never touches the recall list, store or transcript. |
| Terminal.Down | src/MinimalistTerminal.tsx:187-199 | Down does nothing when no line is selected. From a line before the last it moves one line later and shows it; from the last line it goes back to none with an empty input. It keeps the cursor in range and never touches the recall list, store or transcript. |
| Terminal.Edit | src/MinimalistTerminal.tsx:252 | Typing sets the input and nothing else. |
| Terminal.BlankSubmission | src/MinimalistTerminal.tsx:81-82 | A white-space line changes neither the transcript, the variables, the recall list nor the cursor. Enter on such a line empties the input and changes nothing else. |
| Terminal.SubmissionShape | src/MinimalistTerminal.tsx:81-170 | A non-blank line is recalled trimmed and resets the cursor. The transcript is empty exactly when the line is `clear`. Otherwise the old transcript is followed by the echo `$ line` and at most one further entry, which is output or error. |
| Terminal.ClearEmptiesLog | src/MinimalistTerminal.tsx:64-116 | After `clear` the transcript is empty, its own echo included, the variables are unchanged, and `clear` is the last recalled line. |
| Terminal.AssignThenRead | src/MinimalistTerminal.tsx:98-124 | After `name = rest`, reading `name` shows exactly the text after `name = ` in the assignment's answer, unless the name is a command word. |
| Terminal.AssignKeepsNames | src/MinimalistTerminal.tsx:96-101 | Every bound name stays an identifier after an assignment. |
| Terminal.ReassignKeepsOrder | src/MinimalistTerminal.tsx:101 | Reassigning a bound name keeps the listed names, their order and their number, and every other variable keeps its value. |
| Terminal.AssignGood | src/MinimalistTerminal.tsx:95-101 | An assignment keeps names distinct identifiers, numbers in lowest terms and strings free of line terminators. |
| Terminal.ExecuteValid | src/MinimalistTerminal.tsx:80-171 | Every submission keeps the store well-formed and the cursor in range. |
| Terminal.EnterValid | src/MinimalistTerminal.tsx:174-176 | Enter keeps the session valid. |
| Terminal.UpThenDown | src/MinimalistTerminal.tsx:177-199 | Down after Up returns to the selected line, or to none with an empty input, except from the first line. |
| Terminal.DownThenUp | src/MinimalistTerminal.tsx:177-199 | Up after Down returns to the selected line when Down stayed inside the list. |
| Terminal.RecallWalk | tests/Terminal.test.tsx:88-102 | With two lines recalled, Up, Up, Down, Down show the second, the first, the second and an empty input. |
| Terminal.EnterRecords | src/MinimalistTerminal.tsx:85-86 | Entering a trimmed, non-empty line makes it the last recalled line with none selected, whatever the line does. |
| Terminal.RecallAfterTwo | tests/Terminal.test.tsx:80-103 | Entering two lines from a fresh terminal and then pressing Up, Up, Down, Down shows the second, the first, the second and an empty input. |

## Left out

- The `Function(...)` evaluation is an oracle parameter. What JavaScript computes for an expression is not modelled.
- JavaScript number precision is not modelled. Values are exact decimals, so the model ignores double rounding and `parseInt` precision loss for numerals of more than 15 significant digits.
- JavaScript shows numbers of magnitude 1e21 or more, or below 1e-6, in exponent form: `x = 0.0000001` echoes `x = 1e-7`. The model shows `0.0000001`.
- Values.NumberRoundTrip: holds for exact decimals, with the same exception for exponent forms.
- Values.FormatParseRoundTrip: holds for exact decimals. In JavaScript it fails for numbers shown in exponent form, because `parseValue("1e-7")` gives the string `1e-7`.
- The object store has only own keys. JavaScript's `in` also finds inherited keys such as `constructor` or `toString`, for commands and variables; that is not modelled.
- `toLowerCase` is modelled on ASCII letters only. The one non-ASCII character that lowers to an ASCII letter is U+212A KELVIN SIGN, which lowers to `k`, and no command word contains `k`.
- The React side is not modelled: state hooks, re-rendering, focus, auto-scroll, `preventDefault`, and the JSX and CSS of both components. The state updates of one key press are applied in program order.
- `tests/Comparisons.test.tsx` expects Python-style operators and keywords (`==`, `is`, `and`, `not`). The code has none of them, as described above, so the model has none either.
- Build, demo and export files are not modelled: `vite.config.ts`, `vite.demo.config.ts`, `demo/App.tsx`, `test/setup.ts` and `src/index.ts`.
- Interpreter.Dispatch: its own contract fixes the store for every line, but of the reply it only says that clearing gives none. The reply for each kind of line is stated by AssignmentStores, CommandOutcome, LookupOutcome and ExpressionOutcome.

=== FILE: chars.dfy ===
/** Character classes of the JavaScript regular expressions and string methods
    the terminal's interpreter relies on. */
module Chars {

  /** JavaScript's `\s`, which is also the set `String.prototype.trim` removes:
      the WhiteSpace and LineTerminator code points of ECMAScript. */
  predicate IsSpace(c: char) {
    || c == '\t' || c == '\n' || c == '\U{000B}' || c == '\U{000C}' || c == '\r' || c == ' '
    || c == '\U{00A0}' || c == '\U{1680}' || ('\U{2000}' <= c <= '\U{200A}')
    || c == '\U{2028}' || c == '\U{2029}' || c == '\U{202F}' || c == '\U{205F}'
    || c == '\U{3000}' || c == '\U{FEFF}'
  }

  /** The characters a regular-expression `.` does not match. */
  predicate IsLineTerminator(c: char) {
    c == '\n' || c == '\r' || c == '\U{2028}' || c == '\U{2029}'
  }

  /** `\d`: ASCII digits only. */
  predicate IsDigit(c: char) {
    '0' <= c <= '9'
  }

  predicate IsLetter(c: char) {
    ('a' <= c <= 'z') || ('A' <= c <= 'Z')
  }

  /** `\w`, also the characters an identifier continues with. */
  predicate IsWordChar(c: char) {
    IsLetter(c) || IsDigit(c) || c == '_'
  }

  /** `[a-zA-Z_]`, the first character of an identifier. */
  predicate IsIdentStart(c: char) {
    IsLetter(c) || c == '_'
  }

  /** Lower-casing of ASCII letters; every other character is kept. */
  function ToLower(c: char): (r: char)
    ensures IsLetter(c) <==> IsLetter(r)
    ensures !IsLetter(c) ==> r == c
    ensures 'a' <= r <= 'z' || !IsLetter(r)
    ensures 'a' <= c <= 'z' ==> r == c
    ensures 'A' <= c <= 'Z' ==> r as int - 'a' as int == c as int - 'A' as int
  {
    if 'A' <= c <= 'Z' then (c as int + 32) as char else c
  }
}

=== FILE: interpreter.dfy ===
/** `executeCommand` after the empty-line check and the echo: what one trimmed
    line does to the variables, and the one transcript entry it may add. */
module Interpreter {
  import opened Options
  import opened Chars
  import opened Text
  import opened Values
  import opened Store
  import opened Syntax
  import opened Substitution

  /** The three styles of transcript line. */
  datatype Kind = Input | Output | Error

  /** One line of the transcript, as the terminal renders it. */
  datatype Entry = Entry(kind: Kind, text: string)

  /** The keys of the built-in command table. */
  datatype Command = Vars | Clear | Help

  function CommandName(c: Command): (w: string)
    ensures IsIdentifier(w) && Lower(w) == w
  {
    match c
    case Vars => "vars"
    case Clear => "clear"
    case Help => "help"
  }

  /** `command in commands` for `command = t.toLowerCase()`, own keys only. */
  function ParseCommand(t: string): (r: Option<Command>)
    ensures forall c :: r == Some(c) <==> Lower(t) == CommandName(c)
  {
    var w := Lower(t);
    if w == "vars" then Some(Vars)
    else if w == "clear" then Some(Clear)
    else if w == "help" then Some(Help)
    else None
  }

  /** The casing of a line never changes the command it selects: a line and
      any text that differs from it only in letter case, its lowered form
      included, select the same command or none. */
  lemma CommandCaseInsensitive(t: string, u: string)
    ensures ParseCommand(Lower(t)) == ParseCommand(t)
    ensures SameUpToCase(t, u) ==> ParseCommand(u) == ParseCommand(t)
  {
    LowerIdempotent(t);
    LowerCaseless(t, u);
  }

  /** A command word holds letters only, so it is never an assignment. */
  lemma CommandIsNoAssignment(t: string)
    requires ParseCommand(t).Some?
    ensures ScanAssignment(t) == None
  {
    var w := Lower(t);
    forall k | 0 <= k < |t| ensures t[k] != '=' {
      assert IsLetter(w[k]) by { assert w[k] == CommandName(ParseCommand(t).value)[k]; }
    }
    NoEqualsNoAssignment(t);
  }

  const HelpText: string :=
    "Available commands:\n"
    + "<var> = <value>    - Declare variable (e.g., name = 'John', age = 25, active = True)\n"
    + "<var>              - Display variable value\n"
    + "<expression>       - Evaluate math expression (e.g., 2 + 3 * 4)\n"
    + "vars               - List all declared variables\n"
    + "clear              - Clear terminal output\n"
    + "help               - Show this help message"

  /** The line `vars` shows for one binding. */
  function VarLine(b: Binding): string {
    b.name + " = " + FormatValue(b.value)
  }

  /** One line per binding, in the order the names were first assigned. */
  function VarLines(st: Store): seq<string> {
    seq(|st|, i requires 0 <= i < |st| => VarLine(st[i]))
  }

  /** The text of the `vars` command. */
  function VarsText(st: Store): (r: string)
    ensures |st| == 0 <==> r == "No variables declared"
  {
    if |st| == 0 then "No variables declared"
    else
      var r := JoinLines(VarLines(st));
      assert r != "No variables declared" by {
        assert r[..|VarLine(st[0])|] == VarLine(st[0]);
        assert r[|st[0].name| + 1] == '=';
      }
      r
  }

  /** Names are identifiers and string values carry no line terminator. */
  predicate PrintableValues(st: Store) {
    forall i :: 0 <= i < |st| ==>
      IsIdentifier(st[i].name) && (st[i].value.Str? ==> NoLineTerminator(st[i].value.s))
  }

  /** The text of a value holds no newline when a string value holds none. */
  lemma FormatHasNoNewline(v: Value)
    requires v.Str? ==> NoLineTerminator(v.s)
    ensures '\n' !in FormatValue(v)
  {
    var f := FormatValue(v);
    match v
    case Str(s) =>
      forall k | 0 <= k < |f| ensures f[k] != '\n' {
        if 0 < k < |f| - 1 { assert f[k] == s[k - 1]; }
      }
    case Bool(_) =>
    case Num(m, e) =>
      var sign, w, d := NumberTextShape(m, e);
      assert forall k :: 0 <= k < |w| ==> w[k] != '\n';
      assert forall k :: 0 <= k < |d| ==> d[k] != '\n';
  }

  lemma VarLineHasNoNewline(b: Binding)
    requires IsIdentifier(b.name) && (b.value.Str? ==> NoLineTerminator(b.value.s))
    ensures '\n' !in VarLine(b)
  {
    var f := FormatValue(b.value);
    FormatHasNoNewline(b.value);
    var line := VarLine(b);
    forall k | 0 <= k < |line| ensures line[k] != '\n' {
      if k < |b.name| {
        assert line[k] == b.name[k];
      } else if k >= |b.name| + 3 {
        assert line[k] == f[k - |b.name| - 3];
      }
    }
  }

  /** Reading the `vars` text line by line gives back one `name = value` line
      per binding, in insertion order. */
  lemma VarsListing(st: Store)
    requires |st| > 0 && PrintableValues(st)
    ensures var lines := SplitLines(VarsText(st));
      |lines| == |st| && forall i :: 0 <= i < |st| ==> lines[i] == VarLine(st[i])
  {
    var lines := VarLines(st);
    forall i | 0 <= i < |lines| ensures '\n' !in lines[i] {
      VarLineHasNoNewline(st[i]);
    }
    SplitJoin(lines);
  }

  /** A listing line is the name, ` = `, and a text that reads back as the value. */
  lemma VarLineReadsBack(b: Binding)
    requires Canonical(b.value)
    ensures var l := VarLine(b); var k := |b.name| + 3;
      |l| >= k && l[..k] == b.name + " = " && ParseValue(l[k..]) == b.value
  {
    var l := VarLine(b);
    var k := |b.name| + 3;
    assert l[k..] == FormatValue(b.value);
    FormatParseRoundTrip(b.value);
  }

  /** The `vars` listing of a good store reads back as the store: its lines,
      in store order, name each variable and show a text that `parseValue`
      turns back into the variable's value. */
  lemma ListingReadsBack(st: Store)
    requires |st| > 0 && PrintableValues(st)
    requires forall i :: 0 <= i < |st| ==> Canonical(st[i].value)
    ensures var ls := SplitLines(VarsText(st));
      && |ls| == |st|
      && forall i :: 0 <= i < |st| ==>
           && |ls[i]| >= |st[i].name| + 3
           && ls[i][..|st[i].name| + 3] == st[i].name + " = "
           && ParseValue(ls[i][|st[i].name| + 3..]) == st[i].value
  {
    VarsListing(st);
    forall i | 0 <= i < |st|
      ensures |VarLine(st[i])| >= |st[i].name| + 3
      ensures VarLine(st[i])[..|st[i].name| + 3] == st[i].name + " = "
      ensures ParseValue(VarLine(st[i])[|st[i].name| + 3..]) == st[i].value
    {
      VarLineReadsBack(st[i]);
    }
  }

  /** The text a built-in command returns. */
  function CommandOutput(c: Command, st: Store): (r: string)
    ensures r == "" <==> c == Clear
  {
    match c
    case Vars => VarsText(st)
    case Clear => ""
    case Help => HelpText
  }

  /** What one trimmed line does: the new store, whether the transcript is
      emptied, and the one entry added after the echo, if any. */
  datatype Outcome = Outcome(store: Store, cleared: bool, reply: Option<Entry>)

  /** The branches of `executeCommand`, first match first: assignment, built-in
      command, and then a lookup or an evaluation. */
  function Dispatch(t: string, st: Store, eval: string -> Option<string>): (o: Outcome)
    requires IdentifierNames(st)
    ensures o.cleared ==> o.reply == None && o.store == st
    ensures o.store != st ==> ScanAssignment(t).Some?
    ensures ScanAssignment(t).Some? ==> var m := ScanAssignment(t).value;
      o.store == Assign(st, m.name, ParseValue(m.rest))
  {
    match ScanAssignment(t)
    case Some(m) => Assignment(st, m)
    case None =>
      match ParseCommand(t)
      case Some(c) => RunCommand(c, st)
      case None => Query(t, st, eval)
  }

  /** `name = rest` stores what `rest` reads as and echoes it. */
  function Assignment(st: Store, m: AssignMatch): (o: Outcome)
    ensures !o.cleared && o.reply.Some? && o.reply.value.kind == Output
    ensures Lookup(o.store, m.name) == Some(ParseValue(m.rest))
    ensures forall n :: n != m.name ==> Lookup(o.store, n) == Lookup(st, n)
    ensures m.name in Names(st) ==> Names(o.store) == Names(st)
    ensures m.name !in Names(st) ==> Names(o.store) == Names(st) + [m.name]
  {
    var v := ParseValue(m.rest);
    AssignFrame(st, m.name, v);
    AssignNames(st, m.name, v);
    Outcome(Assign(st, m.name, v), false, Some(Entry(Output, m.name + " = " + FormatValue(v))))
  }

  /** A built-in command; its text is shown only when it is not empty. */
  function RunCommand(c: Command, st: Store): (o: Outcome)
    ensures o.store == st && (o.cleared <==> c == Clear)
    ensures o.reply.Some? ==> o.reply.value.kind == Output
  {
    var out := CommandOutput(c, st);
    Outcome(st, c == Clear, if out != "" then Some(Entry(Output, out)) else None)
  }

  /** A line that is neither an assignment nor a command: a bare identifier is
      looked up; anything else is evaluated when every character passes the
      gate, and reported as an unknown command otherwise. `eval` stands for the
      JavaScript evaluation of the substituted expression and the text of its
      result, `None` where either throws. */
  function Query(t: string, st: Store, eval: string -> Option<string>): (o: Outcome)
    requires IdentifierNames(st)
    ensures o.store == st && !o.cleared && o.reply.Some? && o.reply.value.kind != Input
  {
    if IsIdentifier(t) then
      match Lookup(st, t)
      case Some(v) => Outcome(st, false, Some(Entry(Output, FormatValue(v))))
      case None => Outcome(st, false, Some(Entry(Error, "Variable \"" + t + "\" not found")))
    else if ExprGate(t) then
      match eval(Substitute(t, st))
      case Some(r) => Outcome(st, false, Some(Entry(Output, r)))
      case None => Outcome(st, false, Some(NotFound(t)))
    else
      Outcome(st, false, Some(NotFound(t)))
  }

  function NotFound(t: string): (e: Entry)
    ensures e.kind == Error
  {
    Entry(Error, "Command not found: " + t)
  }

  /** An assignment always succeeds: the value is stored under the name and
      echoed as `name = value`. */
  lemma AssignmentStores(t: string, st: Store, eval: string -> Option<string>)
    requires IdentifierNames(st) && ScanAssignment(t).Some?
    ensures var m := ScanAssignment(t).value; var o := Dispatch(t, st, eval);
      && Lookup(o.store, m.name) == Some(ParseValue(m.rest))
      && (forall n :: n != m.name ==> Lookup(o.store, n) == Lookup(st, n))
      && o.reply == Some(Entry(Output, m.name + " = " + FormatValue(ParseValue(m.rest))))
      && !o.cleared
  {
  }

  /** A built-in command leaves the store alone; `vars` and `help` answer with
      their text, `clear` adds nothing and empties the transcript. */
  lemma CommandOutcome(t: string, st: Store, eval: string -> Option<string>)
    requires IdentifierNames(st) && ParseCommand(t).Some?
    ensures var c := ParseCommand(t).value; var o := Dispatch(t, st, eval);
      && o.store == st
      && (c == Clear ==> o.cleared && o.reply == None)
      && (c == Vars ==> !o.cleared && o.reply == Some(Entry(Output, VarsText(st))))
      && (c == Help ==> !o.cleared && o.reply == Some(Entry(Output, HelpText)))
  {
    CommandIsNoAssignment(t);
  }

  /** The `vars` listing is never the text of a single value: it opens with a
      name and has `=` after it. */
  lemma ListingIsNoValue(st: Store, v: Value)
    requires |st| > 0 && IdentifierNames(st)
    ensures VarsText(st) != FormatValue(v)
  {
    var r := VarsText(st);
    var n := |st[0].name|;
    assert r[..|VarLine(st[0])|] == VarLine(st[0]);
    assert r[0] == st[0].name[0] && r[n + 1] == '=';
  }

  /** A variable whose name is a command word in any casing can be assigned but
      never read by its bare name: the command runs instead, and its answer is
      not the variable's value. */
  lemma CommandShadowsVariable(t: string, st: Store, eval: string -> Option<string>)
    requires IdentifierNames(st) && t in Names(st) && ParseCommand(t).Some?
    ensures Dispatch(t, st, eval).reply != Some(Entry(Output, FormatValue(Lookup(st, t).value)))
    ensures Dispatch(t, st, eval).store == st
  {
    CommandOutcome(t, st, eval);
    var v := Lookup(st, t).value;
    if ParseCommand(t) == Some(Vars) {
      ListingIsNoValue(st, v);
    } else if ParseCommand(t) == Some(Help) {
      assert HelpText[0] == 'A';
    }
  }

  /** A bare identifier that is no command word shows its value when bound and
      reports that it is not found otherwise. */
  lemma LookupOutcome(t: string, st: Store, eval: string -> Option<string>)
    requires IdentifierNames(st) && IsIdentifier(t) && ParseCommand(t) == None
    ensures var o := Dispatch(t, st, eval);
      && o.store == st && !o.cleared
      && (t in Names(st) ==> o.reply == Some(Entry(Output, FormatValue(Lookup(st, t).value))))
      && (t !in Names(st) ==> o.reply == Some(Entry(Error, "Variable \"" + t + "\" not found")))
  {
    NoEqualsNoAssignment(t);
  }

  /** A line that is no assignment, command or identifier is evaluated when every
      character passes the gate: the oracle's text is shown, and a failure is
      reported as an unknown command. A line with any other character is
      reported as an unknown command without being evaluated. */
  lemma ExpressionOutcome(t: string, st: Store, eval: string -> Option<string>)
    requires IdentifierNames(st)
    requires ScanAssignment(t) == None && ParseCommand(t) == None && !IsIdentifier(t)
    ensures var o := Dispatch(t, st, eval);
      && o.store == st && !o.cleared
      && (ExprGate(t) && eval(Substitute(t, st)).Some? ==>
            o.reply == Some(Entry(Output, eval(Substitute(t, st)).value)))
      && (ExprGate(t) && eval(Substitute(t, st)).None? ==>
            o.reply == Some(Entry(Error, "Command not found: " + t)))
      && (!ExprGate(t) ==> o.reply == Some(Entry(Error, "Command not found: " + t)))
  {
  }
}

=== FILE: numerals.dfy ===
/** Decimal digit strings and the natural numbers they denote: the text side of
    `parseInt`, `parseFloat` and `Number.prototype.toString`. */
module Numerals {
  import opened Chars

  function Pow10(e: nat): (p: nat)
    ensures p >= 1
  {
    if e == 0 then 1 else 10 * Pow10(e - 1)
  }

  predicate AllDigits(s: string) {
    forall k :: 0 <= k < |s| ==> IsDigit(s[k])
  }

  function DigitValue(c: char): (d: nat)
    requires IsDigit(c)
    ensures d < 10
  {
    c as int - '0' as int
  }

  function DigitChar(d: nat): (c: char)
    requires d < 10
    ensures IsDigit(c) && DigitValue(c) == d
  {
    ('0' as int + d) as char
  }

  /** The number a string of decimal digits denotes, most significant first. */
  function DigitsValue(s: string): nat
    requires AllDigits(s)
  {
    if |s| == 0 then 0 else DigitsValue(s[..|s| - 1]) * 10 + DigitValue(s[|s| - 1])
  }

  /** `n` in decimal, most significant digit first, with no leading zero. */
  function NatToString(n: nat): (s: string)
    ensures |s| >= 1 && AllDigits(s)
    ensures s[0] == '0' ==> n == 0 && |s| == 1
  {
    if n < 10 then [DigitChar(n)] else NatToString(n / 10) + [DigitChar(n % 10)]
  }

  /** Reading back the text of `n` gives `n`. */
  lemma {:induction false} NatToStringValue(n: nat)
    ensures DigitsValue(NatToString(n)) == n
    decreases n
  {
    if n >= 10 {
      var p := NatToString(n / 10);
      var s := p + [DigitChar(n % 10)];
      assert s[..|s| - 1] == p;
      NatToStringValue(n / 10);
    }
  }

  function Zeros(k: nat): (z: string)
    ensures |z| == k && AllDigits(z)
    ensures forall i :: 0 <= i < k ==> z[i] == '0'
  {
    seq(k, _ => '0')
  }

  /** `s` widened to `w` characters with leading zeros. */
  function PadZeros(s: string, w: nat): (r: string)
    ensures |r| == if |s| < w then w else |s|
  {
    if |s| < w then Zeros(w - |s|) + s else s
  }

  /** `s` without its leading zeros, keeping one digit at least. */
  function StripZeros(s: string): string
  {
    if |s| > 1 && s[0] == '0' then StripZeros(s[1..]) else s
  }

  lemma AllDigitsConcat(a: string, b: string)
    requires AllDigits(a) && AllDigits(b)
    ensures AllDigits(a + b)
  {
    forall k | 0 <= k < |a + b| ensures IsDigit((a + b)[k]) {
      if k < |a| { assert (a + b)[k] == a[k]; } else { assert (a + b)[k] == b[k - |a|]; }
    }
  }

  /** Reading digits `a` then `b` is reading `a` shifted left by the width of `b`. */
  lemma {:induction false} DigitsValueAppend(a: string, b: string)
    requires AllDigits(a) && AllDigits(b)
    ensures AllDigits(a + b)
    ensures DigitsValue(a + b) == DigitsValue(a) * Pow10(|b|) + DigitsValue(b)
    decreases |b|
  {
    AllDigitsConcat(a, b);
    if |b| > 0 {
      var b' := b[..|b| - 1];
      var ab := a + b;
      assert ab[..|ab| - 1] == a + b';
      assert ab[|ab| - 1] == b[|b| - 1];
      DigitsValueAppend(a, b');
      var A, P, B, d := DigitsValue(a), Pow10(|b'|), DigitsValue(b'), DigitValue(b[|b| - 1]);
      assert DigitsValue(a + b') == A * P + B;
      assert Pow10(|b|) == 10 * P;
      assert DigitsValue(b) == B * 10 + d;
      assert DigitsValue(ab) == DigitsValue(a + b') * 10 + d;
      Distribute(A, P, B, d);
    } else {
      assert a + b == a;
    }
  }

  lemma Distribute(A: int, P: int, B: int, d: int)
    ensures (A * P + B) * 10 + d == A * (10 * P) + (B * 10 + d)
  {
  }

  lemma {:induction false} DigitsValueZeros(k: nat)
    ensures DigitsValue(Zeros(k)) == 0
  {
    if k > 0 {
      assert Zeros(k)[..k - 1] == Zeros(k - 1);
      DigitsValueZeros(k - 1);
    }
  }

  /** Leading zeros do not change the value of a digit string. */
  lemma LeadingZeros(k: nat, s: string)
    requires AllDigits(s)
    ensures AllDigits(Zeros(k) + s)
    ensures DigitsValue(Zeros(k) + s) == DigitsValue(s)
  {
    DigitsValueAppend(Zeros(k), s);
    DigitsValueZeros(k);
  }

  /** A digit string that does not start with 0 is at least as large as its width says. */
  lemma {:induction false} DigitsValueLower(s: string)
    requires AllDigits(s) && |s| > 0 && s[0] != '0'
    ensures DigitsValue(s) >= Pow10(|s| - 1)
    decreases |s|
  {
    if |s| > 1 {
      var p := s[..|s| - 1];
      assert p[0] == s[0];
      DigitsValueLower(p);
    } else {
      assert DigitsValue(s) == DigitValue(s[0]);
    }
  }

  /** Printing the value of a digit string without leading zeros gives the string back. */
  lemma {:induction false} NatToStringOfDigits(s: string)
    requires AllDigits(s) && |s| > 0 && (s[0] != '0' || |s| == 1)
    ensures NatToString(DigitsValue(s)) == s
    decreases |s|
  {
    var n := DigitsValue(s);
    if |s| == 1 {
      assert DigitsValue(s) == DigitValue(s[0]);
      assert [DigitChar(n)] == s;
    } else {
      var p := s[..|s| - 1];
      var d := DigitValue(s[|s| - 1]);
      assert p[0] == s[0];
      DigitsValueLower(p);
      assert n == DigitsValue(p) * 10 + d;
      assert n >= 10;
      assert n / 10 == DigitsValue(p) && n % 10 == d;
      NatToStringOfDigits(p);
      assert DigitChar(d) == s[|s| - 1];
      assert p + [s[|s| - 1]] == s;
    }
  }

  /** Re-rendering a digit string through its value drops exactly its leading zeros. */
  lemma {:induction false} CanonicalDigits(s: string)
    requires AllDigits(s) && |s| > 0
    ensures AllDigits(StripZeros(s))
    ensures NatToString(DigitsValue(s)) == StripZeros(s)
    decreases |s|
  {
    if |s| > 1 && s[0] == '0' {
      assert s == Zeros(1) + s[1..];
      LeadingZeros(1, s[1..]);
      CanonicalDigits(s[1..]);
    } else {
      NatToStringOfDigits(s);
    }
  }
}

=== FILE: options.dfy ===
/** The optional value used for lookups, pattern matches and the evaluator's answer. */
module Options {

  datatype Option<+T> = None | Some(value: T)
}

=== FILE: store.dfy ===
/** The variable store: a JavaScript object whose keys are identifiers, so
    `Object.keys` and `Object.entries` list them in the order they were first
    assigned. */
module Store {
  import opened Options
  import opened Values

  datatype Binding = Binding(name: string, value: Value)

  /** Bindings in the order their names were first assigned. */
  type Store = seq<Binding>

  /** `Object.keys`: the bound names, in order. */
  function Names(st: Store): (ns: seq<string>)
    ensures |ns| == |st|
    ensures forall i :: 0 <= i < |st| ==> ns[i] == st[i].name
  {
    seq(|st|, i requires 0 <= i < |st| => st[i].name)
  }

  /** Each name is bound once, as the keys of an object are. */
  predicate Distinct(st: Store) {
    forall i, j :: 0 <= i < j < |st| ==> st[i].name != st[j].name
  }

  /** The position of the first binding of `name` at or after `k`, or -1. */
  function IndexFrom(st: Store, name: string, k: nat): (i: int)
    requires k <= |st|
    ensures i == -1 || k <= i < |st|
    ensures i == -1 ==> forall j :: k <= j < |st| ==> st[j].name != name
    ensures i != -1 ==> st[i].name == name && forall j :: k <= j < i ==> st[j].name != name
    decreases |st| - k
  {
    if k == |st| then -1
    else if st[k].name == name then k
    else IndexFrom(st, name, k + 1)
  }

  /** The position of the binding of `name`, or -1 when it is unbound. */
  function IndexOf(st: Store, name: string): (i: int)
    ensures -1 <= i < |st|
    ensures i == -1 <==> name !in Names(st)
    ensures i != -1 ==> st[i].name == name
  {
    IndexFrom(st, name, 0)
  }

  /** `name in variables ? variables[name] : undefined`, for own keys. */
  function Lookup(st: Store, name: string): (r: Option<Value>)
    ensures r.Some? <==> name in Names(st)
    ensures r.Some? ==> Binding(name, r.value) in st
  {
    var i := IndexOf(st, name);
    if i == -1 then None else Some(st[i].value)
  }

  /** `{ ...prev, [name]: v }`: a bound name keeps its place and takes the new
      value; an unbound one is added at the end. */
  function Assign(st: Store, name: string, v: Value): (r: Store)
    ensures name in Names(st) ==> Names(r) == Names(st)
    ensures name !in Names(st) ==> r == st + [Binding(name, v)]
    ensures Lookup(r, name) == Some(v)
  {
    var i := IndexOf(st, name);
    if i == -1 then
      var u := st + [Binding(name, v)];
      assert forall j :: 0 <= j < |st| ==> u[j] == st[j] && st[j].name == Names(st)[j];
      assert u[|st|].name == name;
      u
    else
      var u := st[i := Binding(name, v)];
      assert forall j :: 0 <= j < |st| ==> u[j].name == st[j].name;
      SameNamesIndex(st, u, name, 0);
      assert Names(u) == Names(st);
      u
  }

  /** Every binding after an assignment is the new one or was there before. */
  lemma AssignContents(st: Store, name: string, v: Value)
    ensures forall b :: b in Assign(st, name, v) ==> b == Binding(name, v) || b in st
  {
    var r := Assign(st, name, v);
    forall b | b in r ensures b == Binding(name, v) || b in st {
      var i :| 0 <= i < |r| && r[i] == b;
      if i < |st| && r[i] != Binding(name, v) {
        assert r[i] == st[i];
      }
    }
  }

  /** Assigning one name leaves every other name's binding as it was. */
  lemma AssignOthers(st: Store, name: string, v: Value, other: string)
    requires other != name
    ensures Lookup(Assign(st, name, v), other) == Lookup(st, other)
  {
    var r := Assign(st, name, v);
    var i := IndexOf(st, name);
    if i == -1 {
      if other in Names(st) {
        var k := IndexOf(st, other);
        assert IndexOf(r, other) == k by {
          assert forall j :: 0 <= j < |st| ==> r[j] == st[j];
        }
      } else {
        assert other !in Names(r) by {
          assert forall j :: 0 <= j < |r| ==> r[j].name != other;
        }
      }
    } else {
      assert forall j :: 0 <= j < |st| ==> r[j].name == st[j].name;
      if other in Names(st) {
        var k := IndexOf(st, other);
        assert IndexOf(r, other) == k by {
          assert IndexFrom(r, other, 0) == IndexFrom(st, other, 0) by {
            SameNamesIndex(st, r, other, 0);
          }
        }
      } else {
        assert Names(r) == Names(st);
      }
    }
  }

  /** `Object.keys` after an assignment: the same keys for a bound name, and the
      new name added last otherwise. */
  lemma AssignNames(st: Store, name: string, v: Value)
    ensures name in Names(st) ==> Names(Assign(st, name, v)) == Names(st)
    ensures name !in Names(st) ==> Names(Assign(st, name, v)) == Names(st) + [name]
  {
    if name !in Names(st) {
      var r := Assign(st, name, v);
      assert Names(r) == Names(st) + [name] by {
        assert forall j :: 0 <= j < |st| ==> r[j] == st[j];
      }
    }
  }

  /** Assigning one name leaves what every other name reads as unchanged. */
  lemma AssignFrame(st: Store, name: string, v: Value)
    ensures forall other :: other != name ==> Lookup(Assign(st, name, v), other) == Lookup(st, other)
  {
    forall other | other != name
      ensures Lookup(Assign(st, name, v), other) == Lookup(st, other)
    {
      AssignOthers(st, name, v, other);
    }
  }

  /** Stores with the same names find a name at the same position. */
  lemma {:induction false} SameNamesIndex(a: Store, b: Store, name: string, k: nat)
    requires |a| == |b| && k <= |a|
    requires forall j :: 0 <= j < |a| ==> a[j].name == b[j].name
    ensures IndexFrom(a, name, k) == IndexFrom(b, name, k)
    decreases |a| - k
  {
    if k < |a| && a[k].name != name {
      SameNamesIndex(a, b, name, k + 1);
    }
  }

  /** Assignment keeps each name bound once, and the store grows by one binding
      exactly when the name was new. */
  lemma AssignDistinct(st: Store, name: string, v: Value)
    requires Distinct(st)
    ensures Distinct(Assign(st, name, v))
    ensures |Assign(st, name, v)| == |st| + (if name in Names(st) then 0 else 1)
  {
    var r := Assign(st, name, v);
    if name in Names(st) {
      assert forall j :: 0 <= j < |r| ==> r[j].name == Names(r)[j] == Names(st)[j];
    } else {
      forall i, j | 0 <= i < j < |r| ensures r[i].name != r[j].name {
        if j == |st| {
          assert st[i].name == Names(st)[i];
        }
      }
    }
  }
}

=== FILE: substitution.dfy ===
/** Variable substitution before an expression is evaluated: for each binding,
    in store order, `expression.replace(new RegExp("\\b" + name + "\\b", "g"), literal)`. */
module Substitution {
  import opened Chars
  import opened Text
  import opened Values
  import opened Store
  import opened Syntax

  /** The replacement pattern `String.prototype.replace` expands for a match of
      `len` characters at `p` in `t`, from position `i` of `rep` on. A regular
      expression without groups leaves `$$` (a dollar), `$&` (the match), `` $` ``
      (the text before it) and `$'` (the text after it); every other character,
      a lone `$` included, stands for itself. */
  function ExpandFrom(rep: string, i: nat, t: string, p: nat, len: nat): string
    requires i <= |rep| && p + len <= |t|
    decreases |rep| - i
  {
    if i == |rep| then ""
    else if rep[i] == '$' && i + 1 < |rep| && rep[i + 1] == '$' then
      "$" + ExpandFrom(rep, i + 2, t, p, len)
    else if rep[i] == '$' && i + 1 < |rep| && rep[i + 1] == '&' then
      t[p..p + len] + ExpandFrom(rep, i + 2, t, p, len)
    else if rep[i] == '$' && i + 1 < |rep| && rep[i + 1] == '`' then
      t[..p] + ExpandFrom(rep, i + 2, t, p, len)
    else if rep[i] == '$' && i + 1 < |rep| && rep[i + 1] == '\'' then
      t[p + len..] + ExpandFrom(rep, i + 2, t, p, len)
    else
      [rep[i]] + ExpandFrom(rep, i + 1, t, p, len)
  }

  function Expand(rep: string, t: string, p: nat, len: nat): (r: string)
    requires p + len <= |t|
    ensures (forall k :: 0 <= k < |rep| ==> rep[k] != '$') ==> r == rep
  {
    if forall k :: 0 <= k < |rep| ==> rep[k] != '$' then
      ExpandLiteral(rep, 0, t, p, len);
      ExpandFrom(rep, 0, t, p, len)
    else
      ExpandFrom(rep, 0, t, p, len)
  }

  /** A replacement without `$` is inserted as it stands. */
  lemma {:induction false} ExpandLiteral(rep: string, i: nat, t: string, p: nat, len: nat)
    requires i <= |rep| && p + len <= |t|
    requires forall k :: i <= k < |rep| ==> rep[k] != '$'
    ensures ExpandFrom(rep, i, t, p, len) == rep[i..]
    decreases |rep| - i
  {
    if i < |rep| {
      ExpandLiteral(rep, i + 1, t, p, len);
      assert rep[i..] == [rep[i]] + rep[i + 1..];
    }
  }

  /** `\bname\b` matches at `p`: the name is there, and neither neighbour
      continues the word. */
  predicate WordAt(t: string, name: string, p: nat) {
    && p + |name| <= |t| && t[p..p + |name|] == name
    && (p == 0 || !IsWordChar(t[p - 1]))
    && (p + |name| == |t| || !IsWordChar(t[p + |name|]))
  }

  /** The global replace, scanning from `p`: a match is replaced and the scan
      resumes after it; otherwise one character is kept. */
  function ReplaceFrom(t: string, name: string, rep: string, p: nat): string
    requires IsIdentifier(name) && p <= |t|
    decreases |t| - p
  {
    if p == |t| then ""
    else if WordAt(t, name, p) then Expand(rep, t, p, |name|) + ReplaceFrom(t, name, rep, p + |name|)
    else [t[p]] + ReplaceFrom(t, name, rep, p + 1)
  }

  /** `t.replace(/\bname\b/g, rep)`; store names are identifiers, so the pattern
      holds no special character. */
  function ReplaceAll(t: string, name: string, rep: string): (r: string)
    requires IsIdentifier(name)
    ensures r == ReplaceRuns(t, name, rep, 0)
  {
    ReplaceMatchesRuns(t, name, rep, 0);
    ReplaceFrom(t, name, rep, 0)
  }

  /** A reference reading of whole-word replacement: cut the text into maximal
      runs of word characters and single other characters, and replace each
      run that is exactly the name. */
  function ReplaceRuns(t: string, name: string, rep: string, p: nat): string
    requires IsIdentifier(name) && p <= |t|
    decreases |t| - p
  {
    if p == |t| then ""
    else if IsWordChar(t[p]) then
      var q := SkipWord(t, p);
      (if t[p..q] == name then Expand(rep, t, p, |name|) else t[p..q]) + ReplaceRuns(t, name, rep, q)
    else [t[p]] + ReplaceRuns(t, name, rep, p + 1)
  }

  /** Inside a word run no match starts, so the scan copies the rest of the run. */
  lemma {:induction false} InsideRun(t: string, name: string, rep: string, p: nat, q: nat)
    requires IsIdentifier(name) && 0 < p <= q <= |t| && IsWordChar(t[p - 1])
    requires forall k :: p <= k < q ==> IsWordChar(t[k])
    ensures ReplaceFrom(t, name, rep, p) == t[p..q] + ReplaceFrom(t, name, rep, q)
    decreases q - p
  {
    if p < q {
      assert !WordAt(t, name, p) by { assert p != 0 && IsWordChar(t[p - 1]); }
      assert ReplaceFrom(t, name, rep, p) == [t[p]] + ReplaceFrom(t, name, rep, p + 1);
      InsideRun(t, name, rep, p + 1, q);
      assert t[p..q] == [t[p]] + t[p + 1..q];
    } else {
      assert t[p..q] == [];
    }
  }

  /** A word run that is not the name holds no match at its start. */
  lemma NoMatchInOtherRun(t: string, name: string, p: nat, q: nat)
    requires IsIdentifier(name) && p < q <= |t|
    requires forall k :: p <= k < q ==> IsWordChar(t[k])
    requires q == |t| || !IsWordChar(t[q])
    requires t[p..q] != name
    ensures !WordAt(t, name, p)
  {
    var e := p + |name|;
    if e <= |t| {
      if e < q {
        assert IsWordChar(t[e]);
      } else if e > q {
        assert t[p..e][q - p] == t[q];
        assert IsWordChar(name[q - p]);
      }
    }
  }

  /** A word run that is exactly the name is a match, and is replaced. */
  lemma RunReplaced(t: string, name: string, rep: string, p: nat)
    requires IsIdentifier(name) && p < |t| && IsWordChar(t[p])
    requires p == 0 || !IsWordChar(t[p - 1])
    requires t[p..SkipWord(t, p)] == name
    ensures ReplaceFrom(t, name, rep, p)
      == Expand(rep, t, p, |name|) + ReplaceFrom(t, name, rep, SkipWord(t, p))
  {
    assert WordAt(t, name, p);
  }

  /** Any other word run is copied whole. */
  lemma RunCopied(t: string, name: string, rep: string, p: nat)
    requires IsIdentifier(name) && p < |t| && IsWordChar(t[p])
    requires p == 0 || !IsWordChar(t[p - 1])
    requires t[p..SkipWord(t, p)] != name
    ensures ReplaceFrom(t, name, rep, p) == t[p..SkipWord(t, p)] + ReplaceFrom(t, name, rep, SkipWord(t, p))
  {
    var q := SkipWord(t, p);
    assert ReplaceFrom(t, name, rep, p) == [t[p]] + ReplaceFrom(t, name, rep, p + 1) by {
      NoMatchInOtherRun(t, name, p, q);
    }
    assert ReplaceFrom(t, name, rep, p + 1) == t[p + 1..q] + ReplaceFrom(t, name, rep, q) by {
      InsideRun(t, name, rep, p + 1, q);
    }
    var tail := ReplaceFrom(t, name, rep, q);
    assert t[p..q] == [t[p]] + t[p + 1..q];
    assert [t[p]] + (t[p + 1..q] + tail) == ([t[p]] + t[p + 1..q]) + tail;
  }

  /** Whole-word replacement agrees with the reference reading from every
      position that is not strictly inside a word run: a bound name inside a
      longer identifier is left alone, and only complete words are replaced. */
  lemma {:induction false} ReplaceMatchesRuns(t: string, name: string, rep: string, p: nat)
    requires IsIdentifier(name) && p <= |t|
    requires p == 0 || p == |t| || !IsWordChar(t[p - 1]) || !IsWordChar(t[p])
    ensures ReplaceFrom(t, name, rep, p) == ReplaceRuns(t, name, rep, p)
    decreases |t| - p
  {
    if p < |t| {
      if IsWordChar(t[p]) {
        var q := SkipWord(t, p);
        if t[p..q] == name {
          RunReplaced(t, name, rep, p);
        } else {
          RunCopied(t, name, rep, p);
        }
        ReplaceMatchesRuns(t, name, rep, q);
      } else {
        assert !WordAt(t, name, p) by { assert name[0] != t[p]; }
        ReplaceMatchesRuns(t, name, rep, p + 1);
      }
    }
  }

  /** A text in which the name never stands as a whole word is left unchanged. */
  lemma {:induction false} ReplaceNoMatch(t: string, name: string, rep: string, p: nat)
    requires IsIdentifier(name) && p <= |t|
    requires forall q :: p <= q < |t| ==> !WordAt(t, name, q)
    ensures ReplaceFrom(t, name, rep, p) == t[p..]
    decreases |t| - p
  {
    if p < |t| {
      ReplaceNoMatch(t, name, rep, p + 1);
      assert t[p..] == [t[p]] + t[p + 1..];
    }
  }

  /** The text a value is substituted as: a number by its decimal text, a string
      or boolean inside double quotes, booleans in JavaScript's lower case. */
  function Literal(v: Value): (r: string)
    ensures v.Num? ==> r == FormatValue(v)
    ensures !v.Num? ==> |r| >= 2 && r[0] == '"' && r[|r| - 1] == '"'
  {
    match v
    case Num(m, e) => NumberText(m, e)
    case Str(s) => "\"" + s + "\""
    case Bool(b) => if b then "\"true\"" else "\"false\""
  }

  /** Read back as a value, a substituted literal gives the number or string it
      stood for, but a boolean comes back as the text `true` or `false`. */
  lemma LiteralReadsBack(v: Value)
    requires Canonical(v)
    ensures ParseValue(Literal(v)) == if v.Bool? then Str(if v.b then "true" else "false") else v
  {
    match v
    case Num(m, e) => NumberRoundTrip(m, e);
    case Str(s) =>
      QuotedInner('"', s);
      assert Literal(v) == ['"'] + s + ['"'];
    case Bool(b) =>
      var w := if b then "true" else "false";
      QuotedInner('"', w);
      assert Literal(v) == ['"'] + w + ['"'];
  }

  /** The bound names of a store are identifiers, as the assignment pattern makes them. */
  predicate IdentifierNames(st: Store) {
    forall i :: 0 <= i < |st| ==> IsIdentifier(st[i].name)
  }

  /** Every binding in turn, from the first assigned, replaces its name in the
      text the earlier ones left. */
  function Substitute(expr: string, st: Store): string
    requires IdentifierNames(st)
    decreases |st|
  {
    if |st| == 0 then expr
    else Substitute(ReplaceAll(expr, st[0].name, Literal(st[0].value)), st[1..])
  }

  /** An expression in which no bound name stands as a whole word is evaluated
      exactly as typed, whatever the variables hold. */
  lemma {:induction false} SubstituteUntouched(expr: string, st: Store)
    requires IdentifierNames(st)
    requires forall i, q :: 0 <= i < |st| && 0 <= q < |expr| ==> !WordAt(expr, st[i].name, q)
    ensures Substitute(expr, st) == expr
    decreases |st|
  {
    if |st| > 0 {
      ReplaceNoMatch(expr, st[0].name, Literal(st[0].value), 0);
      forall i, q | 0 <= i < |st[1..]| && 0 <= q < |expr| ensures !WordAt(expr, st[1..][i].name, q) {
        assert st[1..][i] == st[i + 1];
      }
      SubstituteUntouched(expr, st[1..]);
    }
  }

  /** Substitution is a fold in store order: the binding assigned last is
      substituted last, into the text all the others produced. */
  lemma {:induction false} SubstituteLast(expr: string, st: Store, b: Binding)
    requires IdentifierNames(st) && IsIdentifier(b.name)
    ensures IdentifierNames(st + [b])
    ensures Substitute(expr, st + [b]) == ReplaceAll(Substitute(expr, st), b.name, Literal(b.value))
    decreases |st|
  {
    assert forall i :: 0 <= i < |st| ==> st[i] == (st + [b])[i];
    if |st| > 0 {
      var e := ReplaceAll(expr, st[0].name, Literal(st[0].value));
      assert (st + [b])[1..] == st[1..] + [b];
      SubstituteLast(e, st[1..], b);
    } else {
      assert (st + [b])[1..] == [];
    }
  }

  /** A bound name inside a longer identifier is not replaced. */
  lemma LongerWordUntouched()
    ensures ReplaceAll("xy + x", "x", "5") == "xy + 5"
  {
    var t := "xy + x";
    ReplaceMatchesRuns(t, "x", "5", 0);
    assert SkipWord(t, 0) == 2 && SkipWord(t, 5) == 6;
    assert t[0..2] == "xy" && t[5..6] == "x";
    ExpandLiteral("5", 0, t, 5, 1);
  }
}

=== FILE: syntax.dfy ===
/** The three regular expressions the interpreter classifies a line with,
    written as scanners: the assignment pattern
    `^([a-zA-Z_][a-zA-Z0-9_]*)\s*=\s*(.+)$`, the identifier pattern
    `^[a-zA-Z_][a-zA-Z0-9_]*$`, and the expression gate, a non-empty run of
    digits, the operators `+ - * / %`, parentheses, `.`, white space, quotes,
    letters and `_`. */
module Syntax {
  import opened Options
  import opened Chars
  import opened Text

  /** `^[a-zA-Z_][a-zA-Z0-9_]*$` */
  predicate IsIdentifier(s: string) {
    && |s| > 0 && IsIdentStart(s[0])
    && forall k :: 0 <= k < |s| ==> IsWordChar(s[k])
  }

  /** The first position at or after `i` that holds no identifier character. */
  function SkipWord(s: string, i: nat): (n: nat)
    requires i <= |s|
    ensures i <= n <= |s|
    ensures forall k :: i <= k < n ==> IsWordChar(s[k])
    ensures n == |s| || !IsWordChar(s[n])
    decreases |s| - i
  {
    if i < |s| && IsWordChar(s[i]) then SkipWord(s, i + 1) else i
  }

  /** The two capture groups of a successful assignment match. */
  datatype AssignMatch = AssignMatch(name: string, rest: string)

  /** The ways a line can be read as an assignment: an identifier, spaces, `=`,
      spaces, and a non-empty rest in which `.` matches every character. */
  predicate AssignSplit(t: string, name: string, sp1: string, sp2: string, rest: string) {
    && t == name + sp1 + "=" + sp2 + rest
    && IsIdentifier(name) && AllSpace(sp1) && AllSpace(sp2)
    && |rest| > 0 && NoLineTerminator(rest)
  }

  /** `t.match(/^([a-zA-Z_][a-zA-Z0-9_]*)\s*=\s*(.+)$/)`. The name cannot end
      early, since the next character must be a space or `=`; the spaces after
      `=` are taken greedily, and given back one at a time only when nothing is
      left for `(.+)`, which can then only ever be the last of them. */
  function ScanAssignment(t: string): (r: Option<AssignMatch>)
    ensures r.Some? ==> |r.value.name| < |t| && r.value.name == t[..|r.value.name|] && IsIdentifier(r.value.name)
    ensures r.Some? ==>
      && 0 < |r.value.rest| < |t| && NoLineTerminator(r.value.rest)
      && r.value.rest == t[|t| - |r.value.rest|..]
  {
    if |t| == 0 || !IsIdentStart(t[0]) then None
    else
      var n := SkipWord(t, 1);
      var k1 := SkipSpace(t, n);
      if k1 == |t| || t[k1] != '=' then None
      else
        var k2 := SkipSpace(t, k1 + 1);
        if k2 < |t| then
          if NoLineTerminator(t[k2..]) then
            WordPrefix(t, n);
            Some(AssignMatch(t[..n], t[k2..]))
          else None
        else if k2 > k1 + 1 && !IsLineTerminator(t[k2 - 1]) then
          WordPrefix(t, n);
          Some(AssignMatch(t[..n], t[k2 - 1..]))
        else
          None
  }

  /** A line that opens with an identifier character and continues with word
      characters up to `n` has that identifier as its prefix. */
  lemma WordPrefix(t: string, n: nat)
    requires 0 < n <= |t| && IsIdentStart(t[0])
    requires forall k :: 1 <= k < n ==> IsWordChar(t[k])
    ensures IsIdentifier(t[..n])
  {
    forall k | 0 <= k < n ensures IsWordChar(t[..n][k]) { assert t[..n][k] == t[k]; }
  }

  /** A line cut into five pieces at three positions, the middle one a single character. */
  lemma Pieces(t: string, n: nat, e: nat, j: nat)
    requires n <= e < j <= |t|
    ensures t == t[..n] + t[n..e] + [t[e]] + t[e + 1..j] + t[j..]
  {
    assert t[..n] + t[n..e] == t[..e];
    assert t[..e] + [t[e]] == t[..e + 1];
    assert t[..e + 1] + t[e + 1..j] == t[..j];
  }

  lemma SpaceSlice(t: string, i: nat, j: nat)
    requires i <= j <= |t| && forall k :: i <= k < j ==> IsSpace(t[k])
    ensures AllSpace(t[i..j])
  {
    forall k | 0 <= k < j - i ensures IsSpace(t[i..j][k]) { assert t[i..j][k] == t[i + k]; }
  }

  /** Every match the scanner reports is a reading of the line as an assignment. */
  lemma ScanSound(t: string) returns (sp1: string, sp2: string)
    requires ScanAssignment(t).Some?
    ensures AssignSplit(t, ScanAssignment(t).value.name, sp1, sp2, ScanAssignment(t).value.rest)
  {
    var m := ScanAssignment(t).value;
    var n := SkipWord(t, 1);
    var k1 := SkipSpace(t, n);
    var k2 := SkipSpace(t, k1 + 1);
    var j := if k2 < |t| then k2 else k2 - 1;
    sp1, sp2 := t[n..k1], t[k1 + 1..j];
    assert m == AssignMatch(t[..n], t[j..]);
    SpaceSlice(t, n, k1);
    SpaceSlice(t, k1 + 1, j);
    assert NoLineTerminator(t[j..]);
    Pieces(t, n, k1, j);
    assert [t[k1]] == "=";
  }

  /** The pieces of a reading of a line as an assignment, position by position. */
  lemma SplitPositions(t: string, name: string, sp1: string, sp2: string, rest: string)
    requires AssignSplit(t, name, sp1, sp2, rest)
    ensures var e := |name| + |sp1|; var b := e + 1 + |sp2|;
      && b < |t| && t[..|name|] == name && t[b..] == rest
      && (forall k :: 0 <= k < |name| ==> IsWordChar(t[k]))
      && (forall k :: |name| <= k < e ==> IsSpace(t[k]))
      && t[e] == '='
      && (forall k :: e < k < b ==> IsSpace(t[k]))
  {
    var e := |name| + |sp1|;
    var b := e + 1 + |sp2|;
    var u := name + sp1;
    var v := u + "=";
    var w := v + sp2;
    assert t == w + rest;
    assert t[..b] == w && t[b..] == rest;
    assert w[..e + 1] == v && v[..e] == u && u[..|name|] == name;
    forall k | 0 <= k < |name| ensures IsWordChar(t[k]) { assert t[k] == name[k]; }
    forall k | |name| <= k < e ensures IsSpace(t[k]) { assert t[k] == sp1[k - |name|]; }
    forall k | e < k < b ensures IsSpace(t[k]) { assert t[k] == sp2[k - e - 1]; }
  }

  /** Where the scanner's positions fall in a reading of a line as an assignment:
      the name and the spaces before `=` end where the reading says, and the
      spaces after `=` run at least as far. */
  lemma ScanPositions(t: string, name: string, sp1: string, sp2: string, rest: string)
    requires AssignSplit(t, name, sp1, sp2, rest)
    ensures var e := |name| + |sp1|; var b := e + 1 + |sp2|;
      && b < |t| && t[..|name|] == name && t[b..] == rest
      && SkipWord(t, 1) == |name| && SkipSpace(t, |name|) == e && t[e] == '='
      && b <= SkipSpace(t, e + 1)
  {
    SplitPositions(t, name, sp1, sp2, rest);
    var n := |name|;
    var e := n + |sp1|;
    assert !IsWordChar(t[n]) by {
      if n < e { assert IsSpace(t[n]); } else { assert t[n] == '='; }
    }
  }

  /** Once the name ends at `n`, `=` stands at `e` and a rest without line
      terminators follows the spaces from `e + 1` to `b`, the scanner matches,
      with a rest that is a suffix of the line no longer than `t[b..]`. */
  lemma ScanGreedy(t: string, n: nat, e: nat, b: nat)
    requires 0 < n <= e < b < |t| && IsIdentStart(t[0])
    requires SkipWord(t, 1) == n && SkipSpace(t, n) == e && t[e] == '='
    requires b <= SkipSpace(t, e + 1) && NoLineTerminator(t[b..])
    ensures ScanAssignment(t).Some? && ScanAssignment(t).value.name == t[..n]
    ensures var m := ScanAssignment(t).value;
      |m.rest| <= |t| - b && m.rest == t[|t| - |m.rest|..]
  {
    var k2 := SkipSpace(t, e + 1);
    if k2 < |t| {
      assert NoLineTerminator(t[k2..]) by {
        forall k | 0 <= k < |t| - k2 ensures !IsLineTerminator(t[k2..][k]) {
          assert t[k2..][k] == t[b..][k2 - b + k];
        }
      }
    } else {
      assert !IsLineTerminator(t[k2 - 1]) by { assert t[k2 - 1] == t[b..][k2 - 1 - b]; }
    }
  }

  /** Whenever the line can be read as an assignment, the scanner reports a
      match with the same name, and its rest is the shortest one: a suffix of
      every other reading's rest, as the greedy `\s*` makes it. */
  lemma ScanComplete(t: string, name: string, sp1: string, sp2: string, rest: string)
    requires AssignSplit(t, name, sp1, sp2, rest)
    ensures ScanAssignment(t).Some?
    ensures ScanAssignment(t).value.name == name
    ensures var m := ScanAssignment(t).value;
      |m.rest| <= |rest| && rest[|rest| - |m.rest|..] == m.rest
  {
    ScanPositions(t, name, sp1, sp2, rest);
    var e := |name| + |sp1|;
    var b := e + 1 + |sp2|;
    assert IsIdentStart(t[0]) by { assert t[0] == t[..|name|][0]; }
    ScanGreedy(t, |name|, e, b);
    var m := ScanAssignment(t).value;
    assert rest[|rest| - |m.rest|..] == t[|t| - |m.rest|..];
  }

  /** A line with no `=` is never an assignment. */
  lemma NoEqualsNoAssignment(t: string)
    requires forall k :: 0 <= k < |t| ==> t[k] != '='
    ensures ScanAssignment(t) == None
  {
  }

  /** Nothing keeps a second `=` out of the rest: `x == 1` assigns the text `= 1`. */
  lemma DoubleEqualsAssigns()
    ensures ScanAssignment("x == 1") == Some(AssignMatch("x", "= 1"))
  {
    var t := "x == 1";
    assert SkipWord(t, 1) == 1;
    assert SkipSpace(t, 1) == 2;
    assert SkipSpace(t, 3) == 3;
    assert t[..1] == "x" && t[3..] == "= 1";
  }

  /** The name of a built-in command is an identifier like any other, so
      `vars = 1` is an assignment to a variable named `vars`. */
  lemma CommandNameAssigns()
    ensures ScanAssignment("vars = 1") == Some(AssignMatch("vars", "1"))
  {
    var t := "vars = 1";
    assert SkipWord(t, 1) == 4;
    assert SkipSpace(t, 4) == 5;
    assert SkipSpace(t, 6) == 7;
    assert t[..4] == "vars" && t[7..] == "1";
  }

  /** On a trimmed line the rest is what follows the spaces after `=`, and it is
      itself trimmed, so reading its value trims nothing away. */
  lemma ScanTrimmed(t: string)
    requires Bordered(t) && ScanAssignment(t).Some?
    ensures var m := ScanAssignment(t).value;
      Bordered(m.rest) && m.rest == t[|t| - |m.rest|..] && |m.rest| < |t|
  {
    var n := SkipWord(t, 1);
    var k1 := SkipSpace(t, n);
    var k2 := SkipSpace(t, k1 + 1);
    assert k2 < |t|;
  }

  /** One character of the expression gate. */
  predicate IsExprChar(c: char) {
    || IsDigit(c) || c == '+' || c == '-' || c == '*' || c == '/' || c == '%'
    || c == '(' || c == ')' || c == '.' || IsSpace(c)
    || c == '"' || c == '\'' || IsLetter(c) || c == '_'
  }

  /** The expression gate, tested on the whole trimmed line. */
  predicate ExprGate(t: string) {
    |t| > 0 && forall k :: 0 <= k < |t| ==> IsExprChar(t[k])
  }

  /** Comparison and assignment operators are outside the gate, so a line using
      one is never evaluated. */
  lemma GateRejectsComparisons(t: string, k: nat)
    requires k < |t| && (t[k] == '=' || t[k] == '<' || t[k] == '>' || t[k] == '!')
    ensures !ExprGate(t)
  {
  }

  /** A bare identifier holds no `=`, so it is never an assignment and reaches
      the lookup branch unless it is a command word. */
  lemma IdentifierIsNoAssignment(t: string)
    requires IsIdentifier(t)
    ensures ScanAssignment(t) == None
  {
    forall k | 0 <= k < |t| ensures t[k] != '=' {
      assert IsWordChar(t[k]);
    }
    NoEqualsNoAssignment(t);
  }

  /** Every identifier would pass the expression gate, so the lookup branch is
      what keeps a bare name from being evaluated. */
  lemma IdentifierPassesGate(t: string)
    requires IsIdentifier(t)
    ensures ExprGate(t)
  {
    forall k | 0 <= k < |t| ensures IsExprChar(t[k]) {
      assert IsWordChar(t[k]);
    }
  }
}

=== FILE: terminal.dfy ===
/** The terminal's state and the three things a user can do to it: submit the
    input line with Enter, recall earlier lines with Up and Down, and edit the
    input. Both components of the package, `Terminal` and `MinimalistTerminal`,
    carry this same logic. */
module Terminal {
  import opened Options
  import opened Chars
  import opened Text
  import opened Values
  import opened Store
  import opened Syntax
  import opened Substitution
  import opened Interpreter

  /** The component's state: `variables`, `history` (here `log`),
      `commandHistory` (here `recall`), `historyIndex` (here `cursor`, -1 when
      no line is recalled) and `currentInput`. */
  datatype Session = Session(
    store: Store,
    log: seq<Entry>,
    recall: seq<string>,
    cursor: int,
    input: string)

  const Init := Session([], [], [], -1, "")

  /** The cursor is none or selects an entry of the recall list. */
  predicate CursorInRange(s: Session) {
    s.cursor == -1 || 0 <= s.cursor < |s.recall|
  }

  /** What the store can hold: identifier names, each once, and values as
      `parseValue` makes them — numbers in lowest terms, strings without line
      terminators. */
  predicate GoodStore(st: Store) {
    && PrintableValues(st) && Distinct(st)
    && forall i :: 0 <= i < |st| ==> Canonical(st[i].value)
  }

  /** The invariant every reachable session keeps. */
  predicate Valid(s: Session) {
    GoodStore(s.store) && CursorInRange(s)
  }

  /** The echo of a submitted line. */
  function Echo(t: string): (e: Entry)
    ensures e.kind == Input
  {
    Entry(Input, "$ " + t)
  }

  /** `executeCommand(line)`: a blank line does nothing; any other line is
      trimmed, added to the recall list, echoed, and dispatched. The transcript
      updates apply in program order, so `clear` also removes its own echo. */
  function Execute(s: Session, line: string, eval: string -> Option<string>): (r: Session)
    requires IdentifierNames(s.store)
    ensures r.input == s.input
    ensures Trim(line) == "" ==> r == s
    ensures Trim(line) != "" ==> r.recall == s.recall + [Trim(line)] && r.cursor == -1
    ensures ScanAssignment(Trim(line)) == None ==> r.store == s.store
    ensures ScanAssignment(Trim(line)).Some? ==> var m := ScanAssignment(Trim(line)).value;
      r.store == Assign(s.store, m.name, ParseValue(m.rest))
  {
    var t := Trim(line);
    if t == "" then s
    else
      var o := Dispatch(t, s.store, eval);
      var echoed := if o.cleared then [] else s.log + [Echo(t)];
      var reply := if o.reply.Some? then [o.reply.value] else [];
      Session(o.store, echoed + reply, s.recall + [t], -1, s.input)
  }

  /** Enter: the input line is executed and the input is emptied. */
  function Enter(s: Session, eval: string -> Option<string>): (r: Session)
    requires IdentifierNames(s.store)
    ensures r.input == ""
    ensures var x := Execute(s, s.input, eval);
      r.store == x.store && r.log == x.log && r.recall == x.recall && r.cursor == x.cursor
  {
    Execute(s, s.input, eval).(input := "")
  }

  /** ArrowUp: from none to the last line, otherwise one line earlier but not
      before the first; the input shows the selected line. */
  function Up(s: Session): (r: Session)
    requires CursorInRange(s)
    ensures CursorInRange(r) && r.recall == s.recall && r.store == s.store && r.log == s.log
    ensures |s.recall| > 0 ==> r.cursor != -1 && r.input == s.recall[r.cursor]
    ensures |s.recall| == 0 ==> r == s
    ensures |s.recall| > 0 && s.cursor == -1 ==> r.cursor == |s.recall| - 1
    ensures s.cursor > 0 ==> r.cursor == s.cursor - 1
    ensures s.cursor == 0 ==> r.cursor == 0
  {
    if |s.recall| == 0 then s
    else
      var i := if s.cursor == -1 then |s.recall| - 1 else if s.cursor - 1 < 0 then 0 else s.cursor - 1;
      s.(cursor := i, input := s.recall[i])
  }

  /** ArrowDown: nothing from none; past the last line back to none with an
      empty input; otherwise one line later. */
  function Down(s: Session): (r: Session)
    requires CursorInRange(s)
    ensures CursorInRange(r) && r.recall == s.recall && r.store == s.store && r.log == s.log
    ensures r.cursor == -1 ==> r.input == "" || r == s
    ensures r.cursor != -1 ==> r.input == s.recall[r.cursor]
    ensures s.cursor == -1 ==> r == s
    ensures s.cursor != -1 && s.cursor + 1 < |s.recall| ==> r.cursor == s.cursor + 1
    ensures s.cursor != -1 && s.cursor + 1 >= |s.recall| ==> r.cursor == -1 && r.input == ""
  {
    if s.cursor == -1 then s
    else if s.cursor + 1 >= |s.recall| then s.(cursor := -1, input := "")
    else s.(cursor := s.cursor + 1, input := s.recall[s.cursor + 1])
  }

  /** Typing replaces the input and nothing else. */
  function Edit(s: Session, text: string): (r: Session)
    ensures r.input == text
    ensures r.store == s.store && r.log == s.log && r.recall == s.recall && r.cursor == s.cursor
  {
    s.(input := text)
  }

  /** A line of white space only changes nothing at all, not even the cursor. */
  lemma BlankSubmission(s: Session, line: string, eval: string -> Option<string>)
    requires IdentifierNames(s.store) && AllSpace(line)
    ensures Execute(s, line, eval) == s
    ensures Enter(s.(input := line), eval) == s.(input := "")
  {
    TrimEmpty(line);
  }

  /** Any other line is recalled as trimmed, resets the cursor, and is echoed
      as `$ ` and the trimmed line; at most one more entry follows the echo,
      and it is output or error. Only `clear` empties the transcript instead. */
  lemma SubmissionShape(s: Session, line: string, eval: string -> Option<string>)
    requires IdentifierNames(s.store) && !AllSpace(line)
    ensures var t := Trim(line); var r := Execute(s, line, eval);
      && t != ""
      && r.recall == s.recall + [t] && r.cursor == -1
      && (ParseCommand(t) == Some(Clear) && ScanAssignment(t) == None <==> r.log == [])
      && (r.log != [] ==>
            && |s.log| + 1 <= |r.log| <= |s.log| + 2
            && r.log[..|s.log| + 1] == s.log + [Echo(t)]
            && (|r.log| == |s.log| + 2 ==> r.log[|s.log| + 1].kind != Input))
  {
    TrimEmpty(line);
    var t := Trim(line);
    var o := Dispatch(t, s.store, eval);
    ExecuteLog(s, line, eval);
    if ScanAssignment(t) == None && ParseCommand(t) == Some(Clear) {
      CommandOutcome(t, s.store, eval);
    } else {
      assert !o.cleared by {
        if ScanAssignment(t) == None && ParseCommand(t).Some? {
          CommandOutcome(t, s.store, eval);
        }
      }
      assert o.reply.Some? ==> o.reply.value.kind != Input;
      EchoThenReply(s.log, Echo(t), o.reply);
    }
  }

  /** The transcript after a non-blank line, in terms of the dispatch outcome. */
  lemma ExecuteLog(s: Session, line: string, eval: string -> Option<string>)
    requires IdentifierNames(s.store) && Trim(line) != ""
    ensures var t := Trim(line); var o := Dispatch(t, s.store, eval);
      Execute(s, line, eval).log
        == (if o.cleared then [] else s.log + [Echo(t)]) + (if o.reply.Some? then [o.reply.value] else [])
  {
  }

  /** An echo and at most one reply appended to a transcript keep it as a prefix. */
  lemma EchoThenReply(log: seq<Entry>, echo: Entry, reply: Option<Entry>)
    ensures var r := log + [echo] + (if reply.Some? then [reply.value] else []);
      && |log| + 1 <= |r| <= |log| + 2
      && r[..|log| + 1] == log + [echo]
      && (|r| == |log| + 2 ==> r[|log| + 1] == reply.value)
  {
    var r := log + [echo] + (if reply.Some? then [reply.value] else []);
    assert r[..|log| + 1] == log + [echo];
  }

  /** Pressing Enter on a non-blank input submits its trimmed form: it is
      recalled, the input is emptied, an assignment binds its name to the read
      value and leaves every other variable alone, and unless the line is
      `clear` the old transcript is followed by the echo of the line. */
  lemma EnterSubmits(s: Session, eval: string -> Option<string>)
    requires IdentifierNames(s.store) && !AllSpace(s.input)
    ensures var t := Trim(s.input); var r := Enter(s, eval);
      && r.input == "" && r.recall == s.recall + [t] && r.cursor == -1
      && (ScanAssignment(t) == None ==> r.store == s.store)
      && (ScanAssignment(t).Some? ==> var m := ScanAssignment(t).value;
            && Lookup(r.store, m.name) == Some(ParseValue(m.rest))
            && forall n :: n != m.name ==> Lookup(r.store, n) == Lookup(s.store, n))
      && (ParseCommand(t) == Some(Clear) && ScanAssignment(t) == None <==> r.log == [])
      && (r.log != [] ==> |r.log| > |s.log| && r.log[..|s.log| + 1] == s.log + [Echo(t)])
  {
    var t := Trim(s.input);
    SubmissionShape(s, s.input, eval);
    if ScanAssignment(t).Some? {
      TrimEmpty(s.input);
      var m := ScanAssignment(t).value;
      AssignFrame(s.store, m.name, ParseValue(m.rest));
    }
  }

  /** `clear` in any casing leaves an empty transcript and the variables as they
      were, and is itself recalled. */
  lemma ClearEmptiesLog(s: Session, line: string, eval: string -> Option<string>)
    requires IdentifierNames(s.store) && ParseCommand(Trim(line)) == Some(Clear)
    ensures var r := Execute(s, line, eval);
      r.log == [] && r.store == s.store && r.recall == s.recall + [Trim(line)]
  {
    var t := Trim(line);
    assert t != "";
    CommandOutcome(t, s.store, eval);
  }

  /** After `name = rest`, reading `name` shows exactly the text after `name = `
      in the assignment's echo, unless the name is a command word. */
  lemma AssignThenRead(s: Session, line: string, eval: string -> Option<string>)
    requires IdentifierNames(s.store)
    requires ScanAssignment(Trim(line)).Some?
    requires ParseCommand(ScanAssignment(Trim(line)).value.name) == None
    ensures var m := ScanAssignment(Trim(line)).value; var v := ParseValue(m.rest);
      var s1 := Execute(s, line, eval);
      && IdentifierNames(s1.store) && |s1.log| > 0
      && s1.log[|s1.log| - 1] == Entry(Output, m.name + " = " + FormatValue(v))
      && var s2 := Execute(s1, m.name, eval);
         |s2.log| > 0 && s2.log[|s2.log| - 1] == Entry(Output, FormatValue(v))
  {
    var t := Trim(line);
    var m := ScanAssignment(t).value;
    var v := ParseValue(m.rest);
    var o := Dispatch(t, s.store, eval);
    assert t != "";
    assert Lookup(o.store, m.name) == Some(v) && IdentifierNames(o.store)
      && o.reply == Some(Entry(Output, m.name + " = " + FormatValue(v))) && !o.cleared by {
      AssignmentStores(t, s.store, eval);
      AssignKeepsNames(s.store, m.name, v);
    }
    var s1 := Execute(s, line, eval);
    assert s1.store == o.store && s1.log == s.log + [Echo(t)] + [o.reply.value];
    ReadBack(s1, m.name, v, eval);
  }

  /** Reading a bound identifier that is no command word logs its value. */
  lemma ReadBack(s: Session, name: string, v: Value, eval: string -> Option<string>)
    requires IdentifierNames(s.store) && IsIdentifier(name)
    requires ParseCommand(name) == None && Lookup(s.store, name) == Some(v)
    ensures var r := Execute(s, name, eval);
      |r.log| > 0 && r.log[|r.log| - 1] == Entry(Output, FormatValue(v))
  {
    assert Trim(name) == name by { TrimBordered(name); }
    LookupOutcome(name, s.store, eval);
  }

  /** An assignment keeps every name an identifier. */
  lemma AssignKeepsNames(st: Store, name: string, v: Value)
    requires IdentifierNames(st) && IsIdentifier(name)
    ensures IdentifierNames(Assign(st, name, v))
  {
    AssignContents(st, name, v);
    var r := Assign(st, name, v);
    forall i | 0 <= i < |r| ensures IsIdentifier(r[i].name) {
      assert r[i] in r;
    }
  }

  /** Reassigning a bound name changes neither the listed names nor their
      order, the number of variables stays the same, and every other variable
      keeps its value. */
  lemma ReassignKeepsOrder(s: Session, line: string, eval: string -> Option<string>)
    requires Valid(s)
    requires ScanAssignment(Trim(line)).Some? && ScanAssignment(Trim(line)).value.name in Names(s.store)
    ensures var r := Execute(s, line, eval); var name := ScanAssignment(Trim(line)).value.name;
      && Names(r.store) == Names(s.store) && |r.store| == |s.store|
      && forall n :: n != name ==> Lookup(r.store, n) == Lookup(s.store, n)
  {
    var t := Trim(line);
    var m := ScanAssignment(t).value;
    assert t != "";
    AssignFrame(s.store, m.name, ParseValue(m.rest));
  }

  /** Storing what an assignment's rest reads as keeps the store good. */
  lemma AssignGood(st: Store, t: string)
    requires GoodStore(st) && ScanAssignment(t).Some?
    ensures var m := ScanAssignment(t).value; GoodStore(Assign(st, m.name, ParseValue(m.rest)))
  {
    var m := ScanAssignment(t).value;
    var sp1, sp2 := ScanSound(t);
    var v := ParseValue(m.rest);
    ParseValueNoLineTerminator(m.rest);
    AssignContents(st, m.name, v);
    AssignDistinct(st, m.name, v);
    var r := Assign(st, m.name, v);
    forall i | 0 <= i < |r|
      ensures IsIdentifier(r[i].name) && Canonical(r[i].value)
      ensures r[i].value.Str? ==> NoLineTerminator(r[i].value.s)
    {
      assert r[i] in r;
      if r[i] != Binding(m.name, v) {
        var j :| 0 <= j < |st| && st[j] == r[i];
      }
    }
  }

  /** Every step keeps the session valid. */
  lemma ExecuteValid(s: Session, line: string, eval: string -> Option<string>)
    requires Valid(s)
    ensures Valid(Execute(s, line, eval))
  {
    var t := Trim(line);
    if t != "" && ScanAssignment(t).Some? {
      AssignGood(s.store, t);
    }
  }

  lemma EnterValid(s: Session, eval: string -> Option<string>)
    requires Valid(s)
    ensures Valid(Enter(s, eval))
  {
    ExecuteValid(s, s.input, eval);
  }

  /** Up then Down returns to the line that was selected, or to none with an
      empty input, except from the first line, where Up cannot move. */
  lemma UpThenDown(s: Session)
    requires CursorInRange(s) && |s.recall| > 0 && s.cursor != 0
    ensures Down(Up(s)).cursor == s.cursor
    ensures Down(Up(s)).input == if s.cursor == -1 then "" else s.recall[s.cursor]
  {
  }

  /** Down then Up returns to the selected line when Down did not leave the list. */
  lemma DownThenUp(s: Session)
    requires CursorInRange(s) && s.cursor != -1 && s.cursor + 1 < |s.recall|
    ensures Up(Down(s)).cursor == s.cursor && Up(Down(s)).input == s.recall[s.cursor]
  {
  }

  /** With two lines recalled and none selected, Up, Up, Down, Down show the
      second, the first, the second and finally an empty input. */
  lemma RecallWalk(s: Session, first: string, second: string)
    requires s.recall == [first, second] && s.cursor == -1
    ensures Up(s).input == second
    ensures Up(Up(s)).input == first
    ensures Down(Up(Up(s))).input == second
    ensures Down(Down(Up(Up(s)))).input == ""
  {
    assert Up(s).cursor == 1;
    assert Up(Up(s)).cursor == 0;
    assert Down(Up(Up(s))).cursor == 1;
  }

  /** Entering a trimmed, non-empty line records it as the last recalled line
      and selects none, whatever the line does. */
  lemma EnterRecords(s: Session, text: string, eval: string -> Option<string>)
    requires Valid(s) && Bordered(text) && text != ""
    ensures var r := Enter(s.(input := text), eval);
      Valid(r) && r.recall == s.recall + [text] && r.cursor == -1
  {
    TrimBordered(text);
    EnterValid(s.(input := text), eval);
  }

  /** Submitting two trimmed lines from a fresh terminal recalls them in that
      order with no line selected, so the walk above applies. */
  lemma RecallAfterTwo(first: string, second: string, eval: string -> Option<string>)
    requires Bordered(first) && first != "" && Bordered(second) && second != ""
    ensures var s1 := Enter(Init.(input := first), eval);
      && IdentifierNames(s1.store)
      && var s2 := Enter(s1.(input := second), eval);
      && s2.recall == [first, second] && s2.cursor == -1
      && Up(s2).input == second
      && Up(Up(s2)).input == first
      && Down(Up(Up(s2))).input == second
      && Down(Down(Up(Up(s2)))).input == ""
  {
    EnterRecords(Init, first, eval);
    var s1 := Enter(Init.(input := first), eval);
    assert s1.recall == [first];
    EnterRecords(s1, second, eval);
    var s2 := Enter(s1.(input := second), eval);
    assert s2.recall == [first, second];
    RecallWalk(s2, first, second);
  }
}

=== FILE: text.dfy ===
/** Strings as the interpreter sees them: trimming, lower-casing, and lines. */
module Text {
  import opened Chars

  predicate AllSpace(s: string) {
    forall k :: 0 <= k < |s| ==> IsSpace(s[k])
  }

  predicate NoLineTerminator(s: string) {
    forall k :: 0 <= k < |s| ==> !IsLineTerminator(s[k])
  }

  /** Neither end of `s` is white space: the shape of a trimmed string. */
  predicate Bordered(s: string) {
    |s| == 0 || (!IsSpace(s[0]) && !IsSpace(s[|s| - 1]))
  }

  /** The first position at or after `i` that holds no white space. */
  function SkipSpace(s: string, i: nat): (n: nat)
    requires i <= |s|
    ensures i <= n <= |s|
    ensures forall k :: i <= k < n ==> IsSpace(s[k])
    ensures n == |s| || !IsSpace(s[n])
    decreases |s| - i
  {
    if i < |s| && IsSpace(s[i]) then SkipSpace(s, i + 1) else i
  }

  /** The position at or before `j`, but not before `lo`, where the white space
      ending at `j` begins. */
  function SkipSpaceBack(s: string, lo: nat, j: nat): (n: nat)
    requires lo <= j <= |s|
    ensures lo <= n <= j
    ensures forall k :: n <= k < j ==> IsSpace(s[k])
    ensures n == lo || !IsSpace(s[n - 1])
    decreases j
  {
    if lo < j && IsSpace(s[j - 1]) then SkipSpaceBack(s, lo, j - 1) else j
  }

  /** JavaScript's `String.prototype.trim`: the slice of `s` left when the white
      space at both ends is removed; it neither starts nor ends with white space. */
  function Trim(s: string): (r: string)
    ensures Bordered(r)
    ensures var i := SkipSpace(s, 0); var j := SkipSpaceBack(s, i, |s|); r == s[i..j]
  {
    var i := SkipSpace(s, 0);
    var j := SkipSpaceBack(s, i, |s|);
    assert i < j ==> !IsSpace(s[i]) && !IsSpace(s[j - 1]);
    s[i..j]
  }

  /** Trimming has exactly one possible answer: whatever white space frames a
      bordered string, trimming removes exactly that frame. */
  lemma TrimUnique(a: string, r: string, b: string)
    requires AllSpace(a) && AllSpace(b) && Bordered(r)
    ensures Trim(a + r + b) == r
  {
    var s := a + r + b;
    var i := SkipSpace(s, 0);
    var j := SkipSpaceBack(s, i, |s|);
    forall k | 0 <= k < |a| ensures IsSpace(s[k]) {
      assert s[k] == a[k];
    }
    forall k | |a| + |r| <= k < |s| ensures IsSpace(s[k]) {
      assert s[k] == b[k - |a| - |r|];
    }
    if |r| == 0 {
      assert i == |s|;
      assert j == i;
    } else {
      assert s[|a|] == r[0];
      assert i == |a|;
      assert s[|a| + |r| - 1] == r[|r| - 1];
      assert j == |a| + |r|;
      assert s[i..j] == r;
    }
  }

  /** A string with no white space at either end is its own trim. */
  lemma TrimBordered(s: string)
    requires Bordered(s)
    ensures Trim(s) == s
  {
    TrimUnique([], s, []);
    assert [] + s + [] == s;
  }

  /** A submission trims to nothing exactly when it is all white space. */
  lemma TrimEmpty(s: string)
    ensures Trim(s) == [] <==> AllSpace(s)
  {
    var i := SkipSpace(s, 0);
    var j := SkipSpaceBack(s, i, |s|);
    assert |Trim(s)| == j - i;
  }

  /** Trimming keeps a text free of line terminators. */
  lemma TrimNoLineTerminator(s: string)
    requires NoLineTerminator(s)
    ensures NoLineTerminator(Trim(s))
  {
    var i := SkipSpace(s, 0);
    var j := SkipSpaceBack(s, i, |s|);
    var r := Trim(s);
    assert r == s[i..j];
    forall k | 0 <= k < |r| ensures !IsLineTerminator(r[k]) {
      assert r[k] == s[i + k];
    }
  }

  /** `String.prototype.toLowerCase`, restricted to ASCII letters. */
  function Lower(s: string): (r: string)
    ensures |r| == |s|
    ensures forall k :: 0 <= k < |s| ==> r[k] == ToLower(s[k])
    ensures forall k :: 0 <= k < |r| ==> !('A' <= r[k] <= 'Z')
  {
    seq(|s|, k requires 0 <= k < |s| => ToLower(s[k]))
  }

  /** Two characters that are equal, or the same ASCII letter in the two cases. */
  predicate SameLetter(a: char, b: char) {
    || a == b
    || (IsLetter(a) && IsLetter(b) && (a as int - b as int == 32 || b as int - a as int == 32))
  }

  /** Two texts that differ at most in the case of ASCII letters. */
  predicate SameUpToCase(a: string, b: string) {
    |a| == |b| && forall k :: 0 <= k < |a| ==> SameLetter(a[k], b[k])
  }

  /** Lowering identifies exactly the texts that differ only in letter case. */
  lemma LowerCaseless(a: string, b: string)
    ensures SameUpToCase(a, b) <==> Lower(a) == Lower(b)
  {
    if SameUpToCase(a, b) {
      forall k | 0 <= k < |a| ensures Lower(a)[k] == Lower(b)[k] {
        assert SameLetter(a[k], b[k]);
      }
    }
    if Lower(a) == Lower(b) {
      forall k | 0 <= k < |a| ensures SameLetter(a[k], b[k]) {
        assert ToLower(a[k]) == Lower(a)[k] == Lower(b)[k] == ToLower(b[k]);
      }
    }
  }

  /** Lowering a lowered text changes nothing. */
  lemma LowerIdempotent(s: string)
    ensures Lower(Lower(s)) == Lower(s)
  {
    var w := Lower(s);
    forall k | 0 <= k < |w| ensures Lower(w)[k] == w[k] {
      assert !('A' <= w[k] <= 'Z');
    }
  }

  /** `Array.prototype.join("\n")`. */
  function JoinLines(lines: seq<string>): (r: string)
    ensures |lines| > 0 ==> |r| >= |lines[0]| && r[..|lines[0]|] == lines[0]
    ensures |lines| > 1 ==> |r| > |lines[0]| && r[|lines[0]|] == '\n'
  {
    if |lines| == 0 then ""
    else if |lines| == 1 then lines[0]
    else lines[0] + "\n" + JoinLines(lines[1..])
  }

  /** How a reader of the transcript sees a text: the pieces between newlines. */
  function SplitLines(s: string): (r: seq<string>)
    ensures |r| >= 1
  {
    if |s| == 0 then [""]
    else
      var rest := SplitLines(s[1..]);
      if s[0] == '\n' then [""] + rest
      else [[s[0]] + rest[0]] + rest[1..]
  }

  lemma {:induction false} SplitSingle(a: string)
    requires '\n' !in a
    ensures SplitLines(a) == [a]
    decreases |a|
  {
    if |a| > 0 {
      SplitSingle(a[1..]);
      assert [a[0]] + a[1..] == a;
    }
  }

  lemma {:induction false} SplitFirst(a: string, b: string)
    requires '\n' !in a
    ensures SplitLines(a + "\n" + b) == [a] + SplitLines(b)
    decreases |a|
  {
    var s := a + "\n" + b;
    if |a| == 0 {
      assert s[1..] == b;
    } else {
      assert s[1..] == a[1..] + "\n" + b;
      SplitFirst(a[1..], b);
      assert [a[0]] + a[1..] == a;
    }
  }

  /** Splitting a joined listing at its newlines gives back exactly its lines,
      provided no line holds a newline of its own. */
  lemma {:induction false} SplitJoin(lines: seq<string>)
    requires |lines| > 0
    requires forall i :: 0 <= i < |lines| ==> '\n' !in lines[i]
    ensures SplitLines(JoinLines(lines)) == lines
    decreases |lines|
  {
    if |lines| == 1 {
      SplitSingle(lines[0]);
    } else {
      SplitFirst(lines[0], JoinLines(lines[1..]));
      SplitJoin(lines[1..]);
      assert [lines[0]] + lines[1..] == lines;
    }
  }
}

=== FILE: values.dfy ===
/** Variable values: the Python-like literal syntax of an assignment's right-hand
    side (`parseValue`) and the text a value is shown as (`formatValue`). */
module Values {
  import opened Chars
  import opened Text
  import opened Numerals

  /** JavaScript's `string | number | boolean`. A number is kept exactly, as
      `mantissa / 10^scale`. */
  datatype Value = Str(s: string) | Bool(b: bool) | Num(mantissa: int, scale: nat)

  /** A number is in lowest terms: a fraction's mantissa has no trailing zero.
      Canonical numbers are equal exactly when they denote the same quantity. */
  predicate Canonical(v: Value) {
    v.Num? ==> v.scale == 0 || v.mantissa % 10 != 0
  }

  lemma Shift(x: int, q: int, m: int, s: int)
    requires x * q == (m / 10) * s && m % 10 == 0
    ensures x * (10 * q) == m * s
  {
    assert m == (m / 10) * 10;
    assert x * (10 * q) == (x * q) * 10;
    assert ((m / 10) * s) * 10 == ((m / 10) * 10) * s;
  }

  /** `m / 10^e` in lowest terms, denoting the same quantity. */
  function Normalize(m: int, e: nat): (v: Value)
    ensures v.Num? && Canonical(v)
    ensures v.scale <= e
    ensures v.mantissa * Pow10(e) == m * Pow10(v.scale)
    decreases e
  {
    if e > 0 && m % 10 == 0 then
      var v := Normalize(m / 10, e - 1);
      Shift(v.mantissa, Pow10(e - 1), m, Pow10(v.scale));
      v
    else
      Num(m, e)
  }

  /** A zero appended to the mantissa and one more decimal place denote the same
      number, and normalize alike. */
  lemma NormalizeTen(m: int, e: nat)
    ensures Normalize(m * 10, e + 1) == Normalize(m, e)
  {
    assert (m * 10) % 10 == 0 && (m * 10) / 10 == m;
  }

  /** `m * 10^e / 10^e` normalizes to the integer `m`. */
  lemma {:induction false} NormalizeScaled(m: int, e: nat)
    ensures Normalize(m * Pow10(e), e) == Num(m, 0)
  {
    if e > 0 {
      NormalizeScaled(m, e - 1);
      assert m * Pow10(e) == (m * Pow10(e - 1)) * 10;
      NormalizeTen(m * Pow10(e - 1), e - 1);
    }
  }

  predicate IsQuote(c: char) {
    c == '\'' || c == '"'
  }

  /** `t.startsWith(q) && t.endsWith(q)`; a lone quote is both. */
  predicate QuotedBy(t: string, q: char) {
    |t| > 0 && t[0] == q && t[|t| - 1] == q
  }

  /** `t.slice(1, -1)`, which is empty when `t` has fewer than two characters. */
  function Dequote(t: string): string {
    if |t| >= 2 then t[1..|t| - 1] else ""
  }

  predicate IsNegative(t: string) {
    |t| > 0 && t[0] == '-'
  }

  /** The length of the optional minus sign `-?` at the start of `t`. */
  function SignLength(t: string): (o: nat)
    ensures o <= |t|
  {
    if IsNegative(t) then 1 else 0
  }

  function Signed(t: string, n: nat): int {
    if IsNegative(t) then -(n as int) else n
  }

  /** The first position at or after `i` that holds no digit. */
  function SkipDigits(t: string, i: nat): (n: nat)
    requires i <= |t|
    ensures i <= n <= |t|
    ensures forall k :: i <= k < n ==> IsDigit(t[k])
    ensures n == |t| || !IsDigit(t[n])
    decreases |t| - i
  {
    if i < |t| && IsDigit(t[i]) then SkipDigits(t, i + 1) else i
  }

  lemma DigitSlice(t: string, i: nat, j: nat)
    requires i <= j <= |t|
    requires forall k :: i <= k < j ==> IsDigit(t[k])
    ensures AllDigits(t[i..j])
  {
    forall k | 0 <= k < j - i ensures IsDigit(t[i..j][k]) {
      assert t[i..j][k] == t[i + k];
    }
  }

  /** The regular expression `^-?\d+$`. */
  predicate IsIntegerText(t: string) {
    var o := SignLength(t);
    o < |t| && SkipDigits(t, o) == |t|
  }

  /** The regular expression `^-?\d*\.\d+$`: the digits before the point may be absent. */
  predicate IsDecimalText(t: string) {
    var k := SkipDigits(t, SignLength(t));
    k + 1 < |t| && t[k] == '.' && SkipDigits(t, k + 1) == |t|
  }

  /** `parseInt(t, 10)` of a text matching `^-?\d+$`. */
  function IntegerValue(t: string): int
    requires IsIntegerText(t)
  {
    var o := SignLength(t);
    DigitSlice(t, o, |t|);
    Signed(t, DigitsValue(t[o..]))
  }

  /** The digits of a decimal numeral with the point taken out. */
  function DecimalDigits(t: string): (ds: string)
    requires IsDecimalText(t)
    ensures AllDigits(ds)
  {
    var o := SignLength(t);
    var k := SkipDigits(t, o);
    DigitSlice(t, o, k);
    DigitSlice(t, k + 1, |t|);
    AllDigitsConcat(t[o..k], t[k + 1..]);
    t[o..k] + t[k + 1..]
  }

  /** The number of digits after the point of a decimal numeral. */
  function DecimalPlaces(t: string): nat
    requires IsDecimalText(t)
  {
    |t| - SkipDigits(t, SignLength(t)) - 1
  }

  /** `parseFloat(t)` of a text matching `^-?\d*\.\d+$`, exactly and in lowest terms:
      all its digits read as one integer, scaled down by the number of fraction digits. */
  function DecimalValue(t: string): (v: Value)
    requires IsDecimalText(t)
    ensures v.Num? && Canonical(v)
    ensures v.mantissa * Pow10(DecimalPlaces(t)) == Signed(t, DigitsValue(DecimalDigits(t))) * Pow10(v.scale)
  {
    Normalize(Signed(t, DigitsValue(DecimalDigits(t))), DecimalPlaces(t))
  }

  /** `parseValue`: a quoted string, a boolean, an integer, a decimal, or else
      the trimmed text itself. */
  function ParseValue(valueStr: string): (v: Value)
    ensures Canonical(v)
  {
    ParseTrimmed(Trim(valueStr))
  }

  /** The classification `parseValue` applies to the trimmed text, first match
      first. Numbers come out in lowest terms. */
  function ParseTrimmed(t: string): (v: Value)
    ensures Canonical(v)
    ensures v.Bool? <==> t == "True" || t == "False"
    ensures v.Num? ==> IsIntegerText(t) || IsDecimalText(t)
    ensures v.Str? ==> v.s == t || ((QuotedBy(t, '\'') || QuotedBy(t, '"')) && v.s == Dequote(t))
  {
    if QuotedBy(t, '\'') || QuotedBy(t, '"') then
      Str(Dequote(t))
    else if t == "True" then
      Bool(true)
    else if t == "False" then
      Bool(false)
    else if IsIntegerText(t) then
      Num(IntegerValue(t), 0)
    else if IsDecimalText(t) then
      DecimalValue(t)
    else
      Str(t)
  }

  /** Text whose last character is no digit is not a number. */
  lemma NotNumberText(t: string)
    requires |t| > 0 && !IsDigit(t[|t| - 1])
    ensures !IsIntegerText(t) && !IsDecimalText(t)
  {
  }

  /** A string value read from a line without line terminators has none either. */
  lemma ParseValueNoLineTerminator(x: string)
    requires NoLineTerminator(x)
    ensures ParseValue(x).Str? ==> NoLineTerminator(ParseValue(x).s)
  {
    var t := Trim(x);
    TrimNoLineTerminator(x);
    if QuotedBy(t, '\'') || QuotedBy(t, '"') {
      var s := Dequote(t);
      forall k | 0 <= k < |s| ensures !IsLineTerminator(s[k]) {
        assert s[k] == t[k + 1];
      }
    }
  }

  /** `Number.prototype.toString` of `m / 10^e`: an optional minus sign, then the
      digits of `|m|`, widened with leading zeros to more than `e` digits, with a
      point before the last `e` of them when `e > 0`. */
  function NumberText(m: int, e: nat): (r: string)
    ensures |r| > 0 && (r[0] == '-' || IsDigit(r[0]))
  {
    var sign := if m < 0 then "-" else "";
    var d := PadZeros(NatToString(if m < 0 then -m else m), e + 1);
    if e == 0 then sign + d
    else sign + d[..|d| - e] + "." + d[|d| - e..]
  }

  /** `formatValue`: strings in single quotes, booleans as `True`/`False`,
      numbers as their decimal text. */
  function FormatValue(v: Value): (r: string)
    ensures |r| > 0
    ensures v.Str? ==> r[0] == '\''
    ensures v.Bool? ==> (r[0] == 'T' || r[0] == 'F') && forall k :: 0 <= k < |r| ==> r[k] != '='
    ensures v.Num? ==> r[0] == '-' || IsDigit(r[0])
  {
    match v
    case Str(s) => "'" + s + "'"
    case Bool(b) => if b then "True" else "False"
    case Num(m, e) => NumberText(m, e)
  }

  /** The digits a number is shown with, widened past its scale, still read as `a`. */
  lemma PaddedDigits(a: nat, e: nat)
    ensures var d := PadZeros(NatToString(a), e + 1);
      AllDigits(d) && |d| >= e + 1 && DigitsValue(d) == a
  {
    var r := NatToString(a);
    NatToStringValue(a);
    if |r| < e + 1 {
      LeadingZeros(e + 1 - |r|, r);
    }
  }

  /** The pieces of the text a number is shown as: its sign, the digits before
      the point and the `e` digits after it, which together read as `|m|`. */
  lemma NumberTextShape(m: int, e: nat) returns (sign: string, w: string, f: string)
    ensures sign == (if m < 0 then "-" else "")
    ensures AllDigits(w) && |w| > 0 && AllDigits(f) && |f| == e
    ensures w + f == PadZeros(NatToString(if m < 0 then -m else m), e + 1)
    ensures e == 0 ==> NumberText(m, e) == sign + w
    ensures e > 0 ==> NumberText(m, e) == sign + w + "." + f
  {
    var a := if m < 0 then -m else m;
    sign := if m < 0 then "-" else "";
    var d := PadZeros(NatToString(a), e + 1);
    assert AllDigits(d) && |d| >= e + 1 by { PaddedDigits(a, e); }
    w, f := d[..|d| - e], d[|d| - e..];
    assert w + f == d;
    assert AllDigits(w) && AllDigits(f) by {
      DigitSlice(d, 0, |d| - e);
      DigitSlice(d, |d| - e, |d|);
    }
  }

  /** A sign followed by digits is integer text, read as those digits with the sign. */
  lemma IntegerLayout(sign: string, w: string)
    requires sign == "" || sign == "-"
    requires AllDigits(w) && |w| > 0
    ensures var x := sign + w;
      && IsIntegerText(x) && Bordered(x) && (x[0] == '-' || IsDigit(x[0])) && IsDigit(x[|x| - 1])
      && IsNegative(x) == (sign == "-")
      && IntegerValue(x) == Signed(x, DigitsValue(w))
  {
    var x := sign + w;
    var o := SignLength(x);
    assert o == |sign| by { if sign == "" { assert x[0] == w[0]; } }
    forall i | o <= i < |x| ensures IsDigit(x[i]) {
      assert x[i] == w[i - o];
    }
    assert x[o..] == w;
    assert x[|x| - 1] == w[|w| - 1];
    assert x[0] == '-' || x[0] == w[0];
  }

  /** A sign, digits, a point and more digits is decimal text and no integer text;
      the digits on either side of the point are `w` and `f`. */
  lemma DecimalLayout(sign: string, w: string, f: string)
    requires sign == "" || sign == "-"
    requires AllDigits(w) && AllDigits(f) && |f| > 0
    ensures var x := sign + w + "." + f; var k := SkipDigits(x, SignLength(x));
      && !IsIntegerText(x) && IsDecimalText(x)
      && Bordered(x) && (x[0] == '-' || x[0] == '.' || IsDigit(x[0])) && IsDigit(x[|x| - 1])
      && (|w| > 0 ==> x[0] == '-' || IsDigit(x[0]))
      && IsNegative(x) == (sign == "-")
      && x[SignLength(x)..k] == w && x[k + 1..] == f
  {
    var x := sign + w + "." + f;
    var o := SignLength(x);
    assert o == |sign| by { if sign == "" { assert x[0] == (if |w| > 0 then w[0] else '.'); } }
    forall i | o <= i < o + |w| ensures IsDigit(x[i]) {
      assert x[i] == w[i - o];
    }
    assert x[o + |w|] == '.';
    var k := SkipDigits(x, o);
    assert k == o + |w|;
    forall i | k + 1 <= i < |x| ensures IsDigit(x[i]) {
      assert x[i] == f[i - k - 1];
    }
    assert x[o..k] == w && x[k + 1..] == f;
    assert x[|x| - 1] == f[|f| - 1];
    assert x[0] == (if sign == "-" then '-' else if |w| > 0 then w[0] else '.');
  }

  /** The text of an integer (`e == 0`) is integer text denoting `m`. */
  lemma IntegerTextOfNumber(m: int)
    ensures var x := NumberText(m, 0);
      IsIntegerText(x) && Bordered(x) && (x[0] == '-' || IsDigit(x[0])) && IntegerValue(x) == m
  {
    var sign, w, f := NumberTextShape(m, 0);
    PaddedDigits(if m < 0 then -m else m, 0);
    assert w + f == w;
    IntegerLayout(sign, w);
  }

  /** The text of a fraction (`e > 0`) is decimal text, and no integer text,
      denoting `m / 10^e`. */
  lemma DecimalTextOfNumber(m: int, e: nat)
    requires e > 0 && Canonical(Num(m, e))
    ensures var x := NumberText(m, e);
      && !IsIntegerText(x) && IsDecimalText(x) && Bordered(x) && (x[0] == '-' || IsDigit(x[0]))
      && DecimalValue(x) == Num(m, e)
  {
    var sign, w, f := NumberTextShape(m, e);
    PaddedDigits(if m < 0 then -m else m, e);
    DecimalLayout(sign, w, f);
    var x := sign + w + "." + f;
    var k := SkipDigits(x, SignLength(x));
    assert |x| - k - 1 == e;
    assert Signed(x, DigitsValue(w + f)) == m;
  }

  /** A text opening with a minus sign, a point or a digit is no quoted literal and no
      boolean word, so only the number patterns decide how it is read. */
  lemma NumeralParse(x: string)
    requires |x| > 0 && (x[0] == '-' || x[0] == '.' || IsDigit(x[0]))
    ensures IsIntegerText(x) ==> ParseTrimmed(x) == Num(IntegerValue(x), 0)
    ensures !IsIntegerText(x) && IsDecimalText(x) ==> ParseTrimmed(x) == DecimalValue(x)
  {
    assert x != "True" && x != "False";
  }

  /** Every canonical number re-reads as itself from the text it is shown as. */
  lemma NumberRoundTrip(m: int, e: nat)
    requires Canonical(Num(m, e))
    ensures ParseValue(NumberText(m, e)) == Num(m, e)
  {
    var x := NumberText(m, e);
    if e == 0 {
      IntegerTextOfNumber(m);
    } else {
      DecimalTextOfNumber(m, e);
    }
    TrimBordered(x);
    NumeralParse(x);
  }

  /** The text a value is shown as reads back as that same value: a `vars` line
      or an assignment echo, typed in again, restores the binding. */
  lemma FormatParseRoundTrip(v: Value)
    requires Canonical(v)
    ensures ParseValue(FormatValue(v)) == v
  {
    match v
    case Str(s) =>
      var x := "'" + s + "'";
      TrimBordered(x);
      assert QuotedBy(x, '\'');
      assert x[1..|x| - 1] == s;
    case Bool(b) =>
      TrimBordered(FormatValue(v));
    case Num(m, e) =>
      NumberRoundTrip(m, e);
  }

  /** Text between two equal quotes is stored as it stands, with no escape processing. */
  lemma QuotedInner(q: char, s: string)
    requires IsQuote(q)
    ensures ParseValue([q] + s + [q]) == Str(s)
  {
    var x := [q] + s + [q];
    TrimBordered(x);
    assert x[1..|x| - 1] == s;
  }

  /** A lone quote starts and ends with the same quote, so it is the empty string. */
  lemma LoneQuote(q: char)
    requires IsQuote(q)
    ensures ParseValue([q]) == Str("")
  {
    TrimBordered([q]);
  }

  /** Text opening with one kind of quote and closing with the other is no string
      literal: it is stored with both quotes, as the fallback text. */
  lemma MismatchedQuotes(x: string)
    requires var t := Trim(x); |t| >= 2 && IsQuote(t[0]) && IsQuote(t[|t| - 1]) && t[0] != t[|t| - 1]
    ensures ParseValue(x) == Str(Trim(x))
  {
    var t := Trim(x);
    NotNumberText(t);
    assert t != "True" && t != "False";
  }

  /** Only the exact words `True` and `False` are booleans, and they show as themselves. */
  lemma BooleanWords(x: string)
    ensures ParseValue(x).Bool? <==> Trim(x) == "True" || Trim(x) == "False"
    ensures ParseValue(x).Bool? ==> FormatValue(ParseValue(x)) == Trim(x)
  {
    var t := Trim(x);
    if t == "True" || t == "False" {
      assert !QuotedBy(t, '\'') && !QuotedBy(t, '"') by { assert t[0] == 'T' || t[0] == 'F'; }
    }
  }

  /** Other spellings of the boolean words are plain strings. */
  lemma LowerCaseTrueIsText()
    ensures ParseValue("true") == Str("true")
  {
    var t := "true";
    TrimBordered(t);
    NotNumberText(t);
  }

  /** An integer is shown as its sign and its digits, with no padding. */
  lemma IntegerText(n: int)
    ensures NumberText(n, 0) == (if n < 0 then "-" else "") + NatToString(if n < 0 then -n else n)
  {
  }

  /** An integer literal is shown canonically: its leading zeros are dropped and
      a negative zero shows as `0`. */
  lemma IntegerCanonical(neg: bool, ds: string)
    requires AllDigits(ds) && |ds| > 0
    ensures var x := (if neg then "-" else "") + ds;
      FormatValue(ParseValue(x)) == (if neg && DigitsValue(ds) > 0 then "-" else "") + StripZeros(ds)
  {
    var sign := if neg then "-" else "";
    var x := sign + ds;
    IntegerLayout(sign, ds);
    TrimBordered(x);
    NumeralParse(x);
    var n := Signed(x, DigitsValue(ds));
    assert ParseValue(x) == Num(n, 0);
    IntegerText(n);
    assert (if n < 0 then -n else n) == DigitsValue(ds);
    CanonicalDigits(ds);
  }

  /** The numeral `-?w.f`: an optional minus sign, whole digits, a point and
      fraction digits. */
  function DecimalNumeral(neg: bool, w: string, f: string): string {
    (if neg then "-" else "") + w + "." + f
  }

  /** The numeral `-?w`: an optional minus sign and digits. */
  function IntegerNumeral(neg: bool, w: string): string {
    (if neg then "-" else "") + w
  }

  /** The signed value of a digit string, as `parseInt` or `parseFloat` gives it
      before the point is placed. */
  function SignedDigits(neg: bool, ds: string): int
    requires AllDigits(ds)
  {
    if neg then -(DigitsValue(ds) as int) else DigitsValue(ds)
  }

  /** A sign, whole digits (possibly none), a point and fraction digits are read
      by `parseFloat`. */
  lemma DecimalParsed(neg: bool, w: string, f: string)
    requires AllDigits(w) && AllDigits(f) && |f| > 0
    ensures var x := DecimalNumeral(neg, w, f);
      IsDecimalText(x) && ParseValue(x) == DecimalValue(x)
  {
    var sign := if neg then "-" else "";
    var x := sign + w + "." + f;
    DecimalLayout(sign, w, f);
    TrimBordered(x);
    NumeralParse(x);
  }

  /** The digits of a decimal numeral with the point taken out are the whole
      digits followed by the fraction digits. */
  lemma DecimalParts(neg: bool, w: string, f: string)
    requires AllDigits(w) && AllDigits(f) && |f| > 0
    ensures AllDigits(w + f)
    ensures var x := DecimalNumeral(neg, w, f);
      && IsDecimalText(x) && DecimalPlaces(x) == |f| && DecimalDigits(x) == w + f
      && Signed(x, DigitsValue(DecimalDigits(x))) == SignedDigits(neg, w + f)
  {
    var sign := if neg then "-" else "";
    var x := sign + w + "." + f;
    DecimalLayout(sign, w, f);
    assert IsNegative(x) == neg by {
      if !neg { assert |sign| == 0; }
    }
    AllDigitsConcat(w, f);
  }

  /** `parseFloat` of a sign, whole digits (possibly none), a point and fraction
      digits: all the digits read as one integer with the sign, over 10 to the
      number of fraction digits, in lowest terms. */
  lemma DecimalReading(neg: bool, w: string, f: string)
    requires AllDigits(w) && AllDigits(f) && |f| > 0
    ensures AllDigits(w + f)
    ensures ParseValue(DecimalNumeral(neg, w, f)) == Normalize(SignedDigits(neg, w + f), |f|)
  {
    DecimalParts(neg, w, f);
    DecimalParsed(neg, w, f);
  }

  /** A sign followed by digits reads as the integer those digits denote. */
  lemma IntegerRead(neg: bool, w: string)
    requires AllDigits(w) && |w| > 0
    ensures ParseValue(IntegerNumeral(neg, w)) == Num(SignedDigits(neg, w), 0)
  {
    var sign := if neg then "-" else "";
    var x := sign + w;
    IntegerLayout(sign, w);
    TrimBordered(x);
    NumeralParse(x);
    assert IsNegative(x) == neg by {
      if !neg { assert |sign| == 0; }
    }
  }

  /** A zero appended to the fraction digits multiplies their signed value by
      ten, and to the numeral it is appended at the end. */
  lemma AppendZero(neg: bool, w: string, f: string)
    requires AllDigits(w) && AllDigits(f)
    ensures AllDigits(w + f) && AllDigits(w + (f + "0"))
    ensures SignedDigits(neg, w + (f + "0")) == SignedDigits(neg, w + f) * 10
    ensures DecimalNumeral(neg, w, f + "0") == DecimalNumeral(neg, w, f) + "0"
  {
    AllDigitsConcat(w, f);
    var ds := w + f;
    assert w + (f + "0") == ds + "0";
    assert (ds + "0")[..|ds|] == ds;
    assert DigitsValue(ds + "0") == DigitsValue(ds) * 10;
  }

  /** A zero put before the whole digits leaves the signed value of the digits alone. */
  lemma PrependZero(neg: bool, w: string, f: string)
    requires AllDigits(w) && AllDigits(f)
    ensures AllDigits(w + f) && AllDigits("0" + w) && AllDigits(("0" + w) + f)
    ensures SignedDigits(neg, ("0" + w) + f) == SignedDigits(neg, w + f)
  {
    AllDigitsConcat(w, f);
    LeadingZeros(1, w);
    LeadingZeros(1, w + f);
    assert Zeros(1) == "0";
    assert ("0" + w) + f == Zeros(1) + (w + f);
  }

  /** A zero at the end of the fraction does not change the number: `1.50`
      reads as `1.5`. */
  lemma DecimalTrailingZero(neg: bool, w: string, f: string)
    requires AllDigits(w) && AllDigits(f) && |f| > 0
    ensures ParseValue(DecimalNumeral(neg, w, f) + "0") == ParseValue(DecimalNumeral(neg, w, f))
  {
    AppendZero(neg, w, f);
    DecimalReading(neg, w, f);
    DecimalReading(neg, w, f + "0");
    NormalizeTen(SignedDigits(neg, w + f), |f|);
  }

  /** A zero before the whole digits does not change the number: `01.5` reads
      as `1.5`, and `0.5` as `.5`. */
  lemma DecimalLeadingZero(neg: bool, w: string, f: string)
    requires AllDigits(w) && AllDigits(f) && |f| > 0
    ensures ParseValue(DecimalNumeral(neg, "0" + w, f)) == ParseValue(DecimalNumeral(neg, w, f))
  {
    PrependZero(neg, w, f);
    DecimalReading(neg, w, f);
    DecimalReading(neg, "0" + w, f);
  }

  /** A numeral whose digits are all zero reads as the number 0, whatever its
      sign: `-0.0` is shown as `0`. */
  lemma DecimalZero(neg: bool, w: string, f: string)
    requires AllDigits(w) && AllDigits(f) && |f| > 0
    requires DigitsValue(w) == 0 && DigitsValue(f) == 0
    ensures ParseValue(DecimalNumeral(neg, w, f)) == Num(0, 0)
  {
    DecimalReading(neg, w, f);
    assert SignedDigits(neg, w + f) == 0 * Pow10(|f|) by { DigitsValueAppend(w, f); }
    NormalizeScaled(0, |f|);
  }

  /** A fraction of zeros only reads as the whole number, which is shown without
      a point: `-3.00` reads as `-3`. */
  lemma DecimalWhole(neg: bool, w: string, f: string)
    requires AllDigits(w) && |w| > 0 && AllDigits(f) && |f| > 0
    requires DigitsValue(f) == 0
    ensures ParseValue(DecimalNumeral(neg, w, f)) == ParseValue(IntegerNumeral(neg, w))
  {
    DecimalReading(neg, w, f);
    ZeroFraction(neg, w, f);
    NormalizeScaled(SignedDigits(neg, w), |f|);
    IntegerRead(neg, w);
  }

  /** Fraction digits that are all zero shift the signed value of the whole
      digits left by their width. */
  lemma ZeroFraction(neg: bool, w: string, f: string)
    requires AllDigits(w) && AllDigits(f) && DigitsValue(f) == 0
    ensures AllDigits(w + f)
    ensures SignedDigits(neg, w + f) == SignedDigits(neg, w) * Pow10(|f|)
  {
    DigitsValueAppend(w, f);
    NegatedProduct(DigitsValue(w), Pow10(|f|));
  }

  /** Negating a product negates its first factor. */
  lemma NegatedProduct(a: int, p: int)
    ensures -(a * p) == (-a) * p
  {
  }

  /** A point followed by one non-zero digit matches the decimal pattern only. */
  lemma PointNumeral(d: nat)
    requires 0 < d < 10
    ensures !IsIntegerText(['.', DigitChar(d)]) && IsDecimalText(['.', DigitChar(d)])
    ensures DecimalValue(['.', DigitChar(d)]) == Num(d, 1)
  {
    var t := ['.', DigitChar(d)];
    assert SignLength(t) == 0 && SkipDigits(t, 0) == 0 && SkipDigits(t, 1) == 2;
    var ds := t[0..0] + t[1..];
    assert ds == [DigitChar(d)] && ds[..0] == [];
    assert DigitsValue(ds) == d;
  }

  /** A point followed by one non-zero digit, such as `.5`, is a number: the
      digits before the point may be absent. */
  lemma PointFraction(d: nat)
    requires 0 < d < 10
    ensures ParseValue(['.', DigitChar(d)]) == Num(d, 1)
  {
    var t := ['.', DigitChar(d)];
    TrimBordered(t);
    PointNumeral(d);
    assert !QuotedBy(t, '\'') && !QuotedBy(t, '"') && |t| == 2;
  }

  /** The number 0.5 is shown with a zero before the point. */
  lemma PointFractionShown()
    ensures FormatValue(Num(5, 1)) == "0.5"
  {
    var r := NatToString(5);
    assert r == "5";
    var d := PadZeros(r, 2);
    assert d == "05" by { assert d == Zeros(1) + r; assert Zeros(1) == "0"; }
    assert d[..1] == "0" && d[1..] == "5";
  }

  /** `5.` has no digit after the point, so it stays text. */
  lemma TrailingPoint()
    ensures ParseValue("5.") == Str("5.")
  {
    var u := "5.";
    TrimBordered(u);
    NotNumberText(u);
  }

  /** When the trimmed text is no quoted literal, no boolean word and holds a
      character that no number has, the trimmed text itself is stored. */
  lemma ParseFallback(x: string, k: nat)
    requires var t := Trim(x);
      && !QuotedBy(t, '\'') && !QuotedBy(t, '"') && t != "True" && t != "False"
      && k < |t| && !IsDigit(t[k]) && t[k] != '-' && t[k] != '.'
    ensures ParseValue(x) == Str(Trim(x))
  {
    var t := Trim(x);
    var o := SignLength(t);
    assert o <= k;
    var d := SkipDigits(t, o);
    assert d <= k;
    if t[d] == '.' {
      assert d < k;
      assert SkipDigits(t, d + 1) <= k;
    }
  }
}
